=== FILE: README.md ===
# VividSense site components in Dafny

This project models the logic inside five React components of the VividSense
marketing site and proves properties of that logic. Rendering, animation and
the browser are not modelled. Each component becomes pure functions over
immutable state, plus a `Replay` of user or timer events where the order of
events matters.

- `ecma_string.dfy` (`EcmaString`): the ECMAScript string operations the
  components call.
  - `String(n)` for a non-negative integer (Number::toString, section
    6.1.6.1.20 of ECMA-262 2024).
  - `String.prototype.padStart` (section 22.1.3.17).
  - `String.prototype.split` with a string separator (section 22.1.3.23),
    including the empty-separator case.
  - The `StringIndexOf` operation that `split` is built on (section 6.1.4.1).
  - A join that inverts the split.
- `product_carousel.dfy` (`ProductCarousel`): the product carousel.
  - The active index moves circularly with JavaScript's truncating `%`.
  - The direction flag picks the enter and exit offsets of the slide.
  - The "current / total" counter, the feature numbers and the progress dots.
- `decrypt_text.dfy` (`DecryptText`): the text scramble effect.
  - A start timeout, then an interval whose `iteration` counter grows by 1/3
    per tick.
  - Per-tick frames: an exact prefix, with noise from a 74-character alphabet
    everywhere else.
  - The effect's lifecycle across re-renders and unmounting. It is
    parameterised by what the cleanup clears, so that the code as written and
    a corrected cleanup can be compared.
- `navbar.dfy` (`Navbar`): the navigation bar.
  - The `isScrolled` and `isAtBottom` flags set by the scroll handler.
  - The styling chosen from those flags.
  - The menu's open flag, with its toggle and close events.
- `mission_scroll.dfy` (`MissionScroll`): the mission section.
  - Each paragraph is split on its highlight word, and a highlight span is put
    between consecutive parts.
  - The zero-padded mono label.
  - The sticky column's digits.
- `wrappers.dfy` (`Wrappers`): the `Option` type shared by the modules.
- `contact.dfy` (`Contact`): the application form.
  - A six-field record that is updated one field at a time.
  - A submit handler that clears the record only after an ok response.

Two behaviours of the carousel's `goTo` are worth stating plainly:

- `goTo` does no range check. Any index, including a negative one, is stored
  as the current index (`ProductCarousel.GoToUnchecked`).
- A click on the dot of the current product sets the direction to backward
  (-1), because the test is `index > currentIndex`.

The effect's lifecycle (`DecryptText.Step`) rests on three assumptions about
React, stated here because the finding below depends on them:

- The effect's dependencies are compared as the triple (text, speed, delay).
  A re-render with an equal triple does nothing.
- A re-render with a different triple runs the cleanup of the latest run and
  then starts a fresh run, waiting for its start timeout.
- A state update after unmounting is ignored: an interval that is still
  running then advances its own counter but leaves the display as it was.

## Model

| member | source | states |
|---|---|---|
| EcmaString.IndexOf | src/components/MissionScroll.tsx:128 | StringIndexOf: the result is -1 or a position at or after the start where the pattern occurs; IndexOfLeast pins it as the first such position |
| EcmaString.IndexOfLeast | src/components/MissionScroll.tsx:128 | No occurrence lies between the start and the position found, and -1 means no occurrence at or after the start |
| EcmaString.Split | src/components/MissionScroll.tsx:128 | `text.split(sep)` with no limit: one part per character for an empty separator, otherwise the split loop. Its contract is carried by JoinSplit, SplitPartsFree, SplitManyIffOccurs and SplitAtUnique |
| EcmaString.SplitFrom | src/components/MissionScroll.tsx:128 | The split loop from a position: each part ends at the next occurrence found by IndexOf, and there is always at least one part |
| EcmaString.JoinSplit | src/components/MissionScroll.tsx:128-137 | Splitting any text on any separator and joining the parts with that separator gives the text back |
| EcmaString.SplitPartsFree | src/components/MissionScroll.tsx:128 | No part of a split on a non-empty separator contains the separator |
| EcmaString.SplitManyIffOccurs | src/components/MissionScroll.tsx:128 | A split on a non-empty separator has more than one part exactly when the separator occurs in the text |
| EcmaString.SplitAtUnique | src/components/MissionScroll.tsx:128 | When the separator occurs only at position a, the split is exactly the text before it and the text after it |
| EcmaString.PadStart | src/components/MissionScroll.tsx:109 | padStart reaches the requested length when the fill is non-empty and the string is shorter. It returns the string unchanged otherwise. The string is always the suffix, and the added prefix repeats the fill cyclically |
| EcmaString.DecimalString | src/components/ProductCarousel.tsx:101 | String(n) is all decimal digits with no leading zero, and it is one character long exactly when n < 10 |
| EcmaString.ParseDecimalString | src/components/ProductCarousel.tsx:101 | Reading back the digits String(n) writes gives n |
| EcmaString.ZeroPad | src/components/ProductCarousel.tsx:101 | String(n).padStart(w, '0') is digits only and as long as max(w, number of digits of n), and it still reads as n |
| EcmaString.ZeroPadOneDigit | src/components/ProductCarousel.tsx:221 | A one-digit number padded to two places is '0' followed by its digit |
| ProductCarousel.ProductCount | src/components/ProductCarousel.tsx:14-41 | The product count the state machine uses is the length of the catalogue, two products, each with four features |
| ProductCarousel.JsRem | src/components/ProductCarousel.tsx:71 | JavaScript's % leaves a remainder that differs from a by a multiple of n, has the sign of a and is smaller than n in magnitude |
| ProductCarousel.GoNext | src/components/ProductCarousel.tsx:69-72 | The next arrow sets direction 1 and moves a valid index to the following product, wrapping from the last product to the first |
| ProductCarousel.GoPrev | src/components/ProductCarousel.tsx:74-77 | The previous arrow sets direction -1 and moves a valid index to the preceding product, wrapping from the first product to the last |
| ProductCarousel.GoTo | src/components/ProductCarousel.tsx:79-82 | A jump stores the target index as given. The direction is forward exactly when the target is above the current index, and backward otherwise, including for the same index |
| ProductCarousel.GoToRange | src/components/ProductCarousel.tsx:79-82 | A jump leaves a valid state exactly when its target names a product |
| ProductCarousel.NextPrevInverse | src/components/ProductCarousel.tsx:69-77 | Next then previous, and previous then next, return to the same product |
| ProductCarousel.NextTimesIndex | src/components/ProductCarousel.tsx:69-72 | k presses of next from a valid state stay valid and advance the index by k modulo the product count |
| ProductCarousel.FullCircle | src/components/ProductCarousel.tsx:69-72 | As many presses of next as there are products return to the starting product |
| ProductCarousel.OffsetsMirror | src/components/ProductCarousel.tsx:110-112 | After a forward move the slide enters from +60 and leaves to -60, and after a backward move the reverse. Before any move both offsets are -60 |
| ProductCarousel.CounterLabels | src/components/ProductCarousel.tsx:101 | Both counter halves are two digits reading back as the position (from 1) and the product count, which makes them "01"/"02" and "02" |
| ProductCarousel.FeatureLabels | src/components/ProductCarousel.tsx:221 | Each feature's number is two digits, reading back as its position counted from 1 |
| ProductCarousel.DotTargets | src/components/ProductCarousel.tsx:182-185 | There is one dot per product, in order, and dot i jumps to product i |
| ProductCarousel.OneActiveDot | src/components/ProductCarousel.tsx:186-190 | In a valid state exactly one dot, the current product's, is drawn active |
| ProductCarousel.RunStaysValid | src/components/ProductCarousel.tsx:166-185 | Any sequence of arrow and dot clicks that the page offers keeps the index naming a product |
| ProductCarousel.PageStaysValid | src/components/ProductCarousel.tsx:62-63 | Starting from index 0 and direction 0, the page never leaves the product range |
| ProductCarousel.GoToUnchecked | src/components/ProductCarousel.tsx:79-82 | goTo itself accepts an index with no product: a jump to 5 stores index 5 with direction 1 |
| ProductCarousel.EnterX | src/components/ProductCarousel.tsx:110 | The entering slide's starting x offset, chosen by the sign of the direction; OffsetsMirror states it |
| ProductCarousel.ExitX | src/components/ProductCarousel.tsx:112 | The leaving slide's final x offset, chosen by the sign of the direction; OffsetsMirror states it |
| ProductCarousel.CurrentLabel | src/components/ProductCarousel.tsx:101 | The counter's current half, the 1-based position padded to two digits; CounterLabels states it |
| ProductCarousel.TotalLabel | src/components/ProductCarousel.tsx:101 | The counter's total half, the product count padded to two digits; CounterLabels states it |
| ProductCarousel.FeatureLabel | src/components/ProductCarousel.tsx:221 | The number beside feature i, i+1 padded to two digits; FeatureLabels states it |
| ProductCarousel.DotActive | src/components/ProductCarousel.tsx:186-190 | Dot i is drawn wide when i is the current index; OneActiveDot states it |
| ProductCarousel.Apply | src/components/ProductCarousel.tsx:165-185 | The previous arrow, the next arrow and dot i call goPrev, goNext and goTo(i); RunStaysValid and PageStaysValid state what runs of them keep |
| DecryptText.CharsSize | src/components/DecryptText.tsx:17 | The noise alphabet has 74 characters |
| DecryptText.IntegerForms | src/components/DecryptText.tsx:21-41 | Position i is exact on tick k iff 3i < k, and tick k stops the interval iff k >= 3 times the text length, as implied by iteration = k/3 |
| DecryptText.Frame | src/components/DecryptText.tsx:25-35 | A frame has the text's length, shows the text at revealed positions and an alphabet character everywhere else |
| DecryptText.FrameExactlyPlausible | src/components/DecryptText.tsx:25-35 | A string can be shown on tick k exactly when it has the text's length, agrees with the text at revealed positions and uses alphabet characters elsewhere |
| DecryptText.RevealedCount | src/components/DecryptText.tsx:29 | The revealed positions on tick k are exactly a prefix, of length at most the text's |
| DecryptText.RevealedCountGrows | src/components/DecryptText.tsx:41 | The exact prefix never shrinks as ticks go on |
| DecryptText.Tick | src/components/DecryptText.tsx:24-42 | The tick whose iteration has reached the text length stops the interval and shows the text exactly. Every earlier tick advances the counter and keeps the text |
| DecryptText.TickPlausible | src/components/DecryptText.tsx:26-35 | Every tick's frame has the text's length, shows the text at every position below the iteration, and an alphabet character at every other position |
| DecryptText.TickManyCount | src/components/DecryptText.tsx:24-42 | A fresh interval runs 3 times the text length ticks without stopping, and the next tick is the last and shows the text |
| DecryptText.Cleanup | src/components/DecryptText.tsx:47-49 | After the cleanup a run has no pending callback iff it had none, it was still waiting for the timeout, or the cleanup also clears the interval. The code's cleanup leaves a ticking run, counter included, exactly as it was; an inactive run is never touched; a cancelled callback leaves the run cleared |
| DecryptText.CleanupLast | src/components/DecryptText.tsx:47-50 | The cleanup affects only the current run and keeps earlier runs as they were |
| DecryptText.Mount | src/components/DecryptText.tsx:16-45 | The first render: display "" and one run waiting for its start timeout; MountDormant, MountPending and MountSettled state it |
| DecryptText.Step | src/components/DecryptText.tsx:19-50 | One event of the effect's lifecycle. A start timeout starts its run's interval. An interval callback ticks its run and sets the display only while mounted, because a state update after unmounting is ignored. New props, compared as the triple (text, speed, delay), run the cleanup of the latest run and start a fresh waiting run, keeping the display. Unmounting runs that cleanup. The lemmas from NoTickBeforeDelay to SettledShowsText state it |
| DecryptText.MountDormant | src/components/DecryptText.tsx:16 | On mounting, the display is "" and the only run waits for its timeout |
| DecryptText.NoTickBeforeDelay | src/components/DecryptText.tsx:45 | Until some start timeout fires, the display stays "" and no interval runs, whatever re-renders or unmounting happen |
| DecryptText.MountPending | src/components/DecryptText.tsx:16-45 | A fresh mount is pending: mounted, nothing shown, its only run waiting for the start timeout |
| DecryptText.PendingStep | src/components/DecryptText.tsx:45-50 | While pending, new props cancel the waiting run and start another waiting run, a stray interval callback changes nothing, and unmounting leaves every run cleared with "" displayed, under either cleanup |
| DecryptText.QuietStays | src/components/DecryptText.tsx:45-50 | Until a start timeout fires, the effect stays pending or torn down with nothing shown, whatever other events happen |
| DecryptText.CancelBeforeDelay | src/components/DecryptText.tsx:45-50 | Unmounting before any start timeout fires, after any re-renders, stray interval callbacks or earlier unmounting, leaves no callback: under either cleanup no tick ever fires afterwards and the display stays "" |
| DecryptText.DeadStaysDead | src/components/DecryptText.tsx:47-49 | An unmounted effect with every timer cleared is unchanged by any later events |
| DecryptText.UnmountWhileTicking | src/components/DecryptText.tsx:21-49 | As written, unmounting while the current run ticks at any counter leaves every run unchanged; the interval then keeps firing, advancing the counter by one (or finishing) without changing the display. A cleanup that clears both timers cancels the current run and keeps the earlier ones |
| DecryptText.RerenderRestarts | src/components/DecryptText.tsx:45-50 | New props start a new run that waits for its timeout and then ticks from iteration 0. The display is kept |
| DecryptText.EmptyTextOneTick | src/components/DecryptText.tsx:37-39 | An empty text shows "" once and stops on the first tick |
| DecryptText.ReplayTicks | src/components/DecryptText.tsx:24-42 | m ticks of one run of a mounted effect, with any noise rolls, advance only that run's counter by m, and the finishing tick displays that run's text |
| DecryptText.StaleRunWins | src/components/DecryptText.tsx:47-49 | As written: when the text changes from "AB" to "A" after one tick, the old interval finishes last and leaves "AB" displayed while the current text is "A" |
| DecryptText.MountSettled | src/components/DecryptText.tsx:16-45 | A freshly mounted effect is settled: only its current run can tick, and that run belongs to the current text |
| DecryptText.StepSettled | src/components/DecryptText.tsx:47-49 | With a cleanup that also clears the interval, every event keeps the effect settled |
| DecryptText.SettledShowsText | src/components/DecryptText.tsx:47-49 | With the corrected cleanup, after any events a finished current run means the display shows the current text |
| Navbar.OnScroll | src/components/Navbar.tsx:18-25 | After a scroll, isScrolled holds iff scrollY > 50 and isAtBottom holds iff the viewport ends within 100 pixels of the document's end. The menu flag is kept |
| Navbar.Toggle | src/components/Navbar.tsx:82 | The menu button flips the open flag and nothing else |
| Navbar.Close | src/components/Navbar.tsx:137 | The close button, the overlay logo and the menu links leave the menu closed and nothing else changed |
| Navbar.ToggleTwice | src/components/Navbar.tsx:82 | Pressing the menu button twice restores the state |
| Navbar.CloseIdempotent | src/components/Navbar.tsx:158 | Closing twice is closing once, and closing a closed menu changes nothing |
| Navbar.ScrollForgetsHistory | src/components/Navbar.tsx:18-25 | The flags after a scroll depend on the new geometry alone, and repeating a scroll changes nothing |
| Navbar.MenuScrollCommute | src/components/Navbar.tsx:7-25 | Menu events and scroll events commute |
| Navbar.TextColor | src/components/Navbar.tsx:60 | The colour class of the logo and the clock, dark when scrolled and not at the bottom; StylingAgrees states it |
| Navbar.ButtonStyle | src/components/Navbar.tsx:85-87 | The menu button's border and colour classes, dark when scrolled and not at the bottom; StylingAgrees states it |
| Navbar.Padding | src/components/Navbar.tsx:42 | The bar's padding class, compact exactly when scrolled; StylingAgrees states it |
| Navbar.Apply | src/components/Navbar.tsx:18-158 | A scroll event runs the scroll handler, the menu button toggles and the close controls close; ReplayReference states what traces of them do |
| Navbar.StylingAgrees | src/components/Navbar.tsx:40-87 | Logo, clock and menu button turn dark together, exactly when scrolled and not at the bottom. The bar is compact exactly when scrolled. The first render is light and not compact |
| Navbar.DarkAfterScroll | src/components/Navbar.tsx:60 | After a scroll the bar is dark exactly when scrollY > 50 and the viewport ends more than 100 pixels above the document's end |
| Navbar.LastScroll | src/components/Navbar.tsx:18 | The geometry found is that of the latest scroll event of the trace (no scroll event follows it), and none is found only when there was no scroll event |
| Navbar.LastClose | src/components/Navbar.tsx:137 | The position found holds a close event and no close event follows it, and none is found only when there was no close event |
| Navbar.PressesSnoc | src/components/Navbar.tsx:82-137 | A close event resets the count of presses since the latest close to 0, a button press adds one, and any other event leaves it |
| Navbar.MenuStep | src/components/Navbar.tsx:82-137 | A close, a press or any other event keeps the menu flag equal to the parity of the presses since the latest close |
| Navbar.MenuReference | src/components/Navbar.tsx:82-137 | After any events the menu is open exactly when an odd number of button presses followed the latest close; without a close, that parity flips the starting flag |
| Navbar.ScrollReference | src/components/Navbar.tsx:18-25 | After any events the two flags are those of the latest scroll event, or the starting flags when there was none |
| Navbar.ReplayReference | src/components/Navbar.tsx:7-25 | Both of the above together: flags from the latest scroll event, menu from the parity of the presses since the latest close |
| Navbar.FromInitial | src/components/Navbar.tsx:7-9 | From the first render, both flags stay false until the first scroll event. The menu is open exactly when the number of presses since the latest close (or since the start) is odd |
| MissionScroll.Interleave | src/components/MissionScroll.tsx:128-137 | n parts give 2n-1 fragments (one per part and one span between each two), and no parts give none |
| MissionScroll.InterleaveShape | src/components/MissionScroll.tsx:128-137 | The fragments alternate: part k at position 2k, a highlight span at every odd position, and none after the last part |
| MissionScroll.Paragraph | src/components/MissionScroll.tsx:128-137 | The paragraph's fragments: the section text split on its highlight, interleaved with highlight spans; ParagraphReadsText and ParagraphHighlights state it |
| MissionScroll.InterleaveReads | src/components/MissionScroll.tsx:128-137 | The fragments read as the parts joined with the highlight, and there is one span fewer than there are parts |
| MissionScroll.ParagraphReadsText | src/components/MissionScroll.tsx:128-137 | The rendered paragraph reads exactly as the section text, whatever the highlight |
| MissionScroll.ParagraphHighlights | src/components/MissionScroll.tsx:128-133 | There is one span fewer than split parts. Every span holds the highlight and no plain fragment contains it |
| MissionScroll.OneSpan | src/components/MissionScroll.tsx:128-137 | A highlight occurring once renders as the text before it, one span, and the text after it |
| MissionScroll.MissionOnce | src/components/MissionScroll.tsx:9-10 | "empower" occurs in the mission text exactly once, at position 3 |
| MissionScroll.VisionOnce | src/components/MissionScroll.tsx:16-17 | "future" occurs in the vision text exactly once, at position 2 |
| MissionScroll.ValuesOnce | src/components/MissionScroll.tsx:23-24 | "Innovation" occurs in the values text exactly once, case-sensitively, at position 0 |
| MissionScroll.EachSectionOneSpan | src/components/MissionScroll.tsx:4-26 | Every section's paragraph splits into two parts and shows exactly one highlight span |
| MissionScroll.Label | src/components/MissionScroll.tsx:109 | The mono label, the section number padded to three characters with '0'; LabelOfTwoChars states it |
| MissionScroll.LabelOfTwoChars | src/components/MissionScroll.tsx:109 | A two-character number's mono label is '0' followed by the number, three characters long |
| MissionScroll.Numbering | src/components/MissionScroll.tsx:58-67 | Section i is numbered i+1 in two digits. The number is the static '0' beside the i-th sticky digit, and the label is "00" followed by that digit |
| Contact.EmptyIsBlank | src/components/Contact.tsx:9-16 | The initial state has exactly the six fields and all of them are empty |
| Contact.Change | src/components/Contact.tsx:47-52 | handleChange sets the named field to the new value, keeps every other field, and adds no key other than that name |
| Contact.ChangeKeepsShape | src/components/Contact.tsx:47-52 | A change keeps exactly the six fields iff its name is one of them |
| Contact.ChangeSameValue | src/components/Contact.tsx:47-52 | Writing a field's current value back is the identity |
| Contact.ChangesCommute | src/components/Contact.tsx:47-52 | Changes to different fields commute, and of two changes to one field the later wins |
| Contact.Submit | src/components/Contact.tsx:18-45 | An ok response resets every field and thanks the user. A response without ok changes nothing and shows nothing. A rejected request changes nothing and shows the retry alert |
| Contact.Apply | src/components/Contact.tsx:18-52 | Typing into an input runs handleChange, and the end of a request runs the rest of handleSubmit; ReplayReference and FieldAfter state what traces of them do |
| Contact.ReplayKeepsShape | src/components/Contact.tsx:114-198 | Typing into the rendered inputs and submitting, in any order and with any outcome, keeps exactly the six fields |
| Contact.OkErasesHistory | src/components/Contact.tsx:31-41 | Whatever came before an ok response, the state after it is what the later events make of a blank form |
| Contact.FailedSendDeletable | src/components/Contact.tsx:31-44 | A send whose response is not ok, or whose request is rejected, can be deleted from any trace without changing the resulting state |
| Contact.LastOk | src/components/Contact.tsx:31 | The position found holds an ok response and none follows it, and none is found only when there was no ok response |
| Contact.Inputs | src/components/Contact.tsx:47-52 | The typing of a trace: only input events, and every input event of the trace is among them |
| Contact.InputsAppend | src/components/Contact.tsx:47-52 | The typing keeps the input events in their order and adds nothing: it distributes over concatenation, keeps a single input and drops a single send |
| Contact.InputsLast | src/components/Contact.tsx:47-52 | The latest input to a field is the same event whether or not the sends are filtered out, and there is none in one exactly when there is none in the other |
| Contact.InputsOnly | src/components/Contact.tsx:18-52 | In a trace without an ok response the sends change nothing: replaying it equals replaying its input events alone |
| Contact.ReplayReference | src/components/Contact.tsx:18-52 | After any events the state is the input events since the latest ok response typed into a blank form, or all input events typed into the starting state when there was no ok response; every other send is irrelevant |
| Contact.LastInput | src/components/Contact.tsx:47-52 | The position found holds an input to the named field and no later input goes to that field, and none is found only when the field was never typed into |
| Contact.TypedValue | src/components/Contact.tsx:47-52 | After typing alone, a field holds the value last typed into it, or its starting value (and presence) when nothing was typed into it |
| Contact.FieldAfter | src/components/Contact.tsx:18-52 | Stated on the trace itself: after any events a field holds the value of the latest input to it after the latest ok response; without such an input, "" for each of the six fields (and no other key) after an ok response, or its starting value when there was no ok response |
| Contact.AfterSend | src/components/Contact.tsx:31-44 | Right after an ok response the form is blank. After a failed or rejected request it is what it was before sending |

## Left out

- Animation: the framer-motion transforms, springs, in-view triggers, variants and `AnimatePresence`. Only the values the code hands them (offsets, flags) are modelled.
- Lenis smooth scrolling in `Layout.tsx`.
- DecryptText.IntegerForms: `iteration` is the exact rational k/3. Floating-point accumulation of `1/3` could move the last tick by one for some lengths, and this is not modelled.
- DecryptText.Frame: `Math.random` is modelled as an arbitrary roll per position, an index into the alphabet. Its distribution is not modelled.
- Timer durations (`speed`, `delay`) are not modelled. Time is only the order in which timer callbacks fire.
- The Navbar clock (a one-second interval with `toLocaleString` in GMT) is not modelled: it depends on the wall clock and the locale library.
- Navbar.OnScroll: scroll positions and heights are mathematical reals, not IEEE doubles.
- DOM effects are not modelled: `scrollIntoView`, `preventDefault`, and the anchor navigation of the menu links.
- Contact.Submit: the request is reduced to its outcome (ok, not ok, rejected). The network call and its URL, the `FormData` built from the DOM form, and `alert` are not modelled; the alert is returned as a value.
- `ApplyForm.tsx` is not part of this model. It is not mounted by the app, and its field update is the same as `Contact.Change`.
- The static components are not modelled: Hero, Updates, ProductGrid, Footer, MissionStatement and App. Neither is the Tailwind configuration.
- EcmaString.Split: the `limit` argument is not modelled. Without it the limit is 2^32-1 parts, which no text here comes near.
- EcmaString.Split: a Dafny `char` is a Unicode scalar value, so the model covers text whose UTF-16 code units all lie outside the surrogate range. A character outside the Basic Multilingual Plane (two code units in JavaScript) cannot be represented. The component texts contain none.
- EcmaString.DecimalString: covers non-negative integers only. Numbers from 10^21 upward, which JavaScript writes in exponent form, and non-integers are not modelled; the components only format small counts.
- MissionScroll: the three paragraphs are written as concatenations of short pieces. This lets the verifier index them. Each concatenation spells the same string as the component's literal.
- MissionScroll.ParagraphHighlights: the span count is tied to the split's parts (one fewer), not to the number of occurrences of the highlight. The two agree when the highlight's occurrences do not overlap, as in the three sections (one occurrence each, `EachSectionOneSpan`). For an overlapping highlight, split counts only the occurrences it finds left to right: splitting "aaa" on "aa" gives one span although "aa" occurs twice.
- ProductCarousel: each product's `description` is display text that no logic reads, so the `Product` record leaves it out.
- ProductCarousel: the slide's enter and exit use the direction at render time; AnimatePresence's handling of the exiting element is library behaviour and is not modelled.

## Findings

| source | as written | input that shows it | evidently intended | confidence | as-written member | corrected member |
|---|---|---|---|---|---|---|
| src/components/DecryptText.tsx:47-49 | The effect's cleanup clears only the start timeout. An interval that has already started keeps running after the text changes or the component unmounts. | Mount with text "AB", let the delay pass and one tick fire, then change the text to "A". The new run finishes after four ticks and shows "A". The old run keeps ticking, finishes last and leaves "AB" on screen. | The cleanup also clears the running interval, so only the current text's run writes the display, and a finished run shows the current text. | not executed | DecryptText.StaleRunWins | DecryptText.SettledShowsText |

=== FILE: contact.dfy ===
/** The application form: a record of six text fields updated one field at a
    time by the inputs' change events, and a submit handler that clears the
    record only after the form service answers with an ok response. */
module Contact {
  import opened Wrappers

  /** The form state, keyed by the inputs' `name` attributes as the
      component's object is. */
  type Form = map<string, string>

  /** The six fields, in the order the form shows them. */
  const FieldNames: seq<string> := ["firstName", "lastName", "email", "position", "experience", "message"]

  /** The state has exactly the six fields. */
  predicate WellShaped(form: Form) {
    form.Keys == set k | k in FieldNames
  }

  /** The first render's state, and the one an ok response restores. */
  const Empty: Form := map k | k in FieldNames :: ""

  /** The initial state has the six fields and every one is empty. */
  lemma EmptyIsBlank()
    ensures WellShaped(Empty)
    ensures |FieldNames| == 6 && |Empty.Keys| == 6
    ensures forall k :: k in Empty ==> Empty[k] == ""
  {
    var keys := set k | k in FieldNames;
    assert keys == {"firstName", "lastName", "email", "position", "experience", "message"};
    assert Empty.Keys == keys;
  }

  /** `handleChange`: the spread of the old state with the input's name set to
      its new value. */
  function Change(form: Form, name: string, value: string): (r: Form)
    ensures name in r && r[name] == value
    ensures r.Keys == form.Keys + {name}
    ensures forall k :: k in form && k != name ==> r[k] == form[k]
  {
    form[name := value]
  }

  /** A change event from one of the six inputs keeps the state's shape. */
  lemma ChangeKeepsShape(form: Form, name: string, value: string)
    requires WellShaped(form)
    ensures WellShaped(Change(form, name, value)) <==> name in FieldNames
  {
  }

  /** Writing a field's current value back changes nothing. */
  lemma ChangeSameValue(form: Form, name: string)
    requires name in form
    ensures Change(form, name, form[name]) == form
  {
  }

  /** Changes to two different fields commute; two changes to the same field
      leave the later value. */
  lemma ChangesCommute(form: Form, n1: string, v1: string, n2: string, v2: string)
    ensures n1 != n2 ==> Change(Change(form, n1, v1), n2, v2) == Change(Change(form, n2, v2), n1, v1)
    ensures n1 == n2 ==> Change(Change(form, n1, v1), n2, v2) == Change(form, n2, v2)
  {
  }

  /** How the request to the form service ends: a response whose `ok` flag is
      set, a response without it, or a rejected request. */
  datatype Outcome = Ok | NotOk | Throw

  const ThankYou: string := "Thank you for your application!"
  const TryAgain: string := "There was an error submitting the form. Please try again."

  /** `handleSubmit`: the state after the request and the alert shown, if
      any. */
  function Submit(form: Form, outcome: Outcome): (r: (Form, Option<string>))
    ensures r.0 == (if outcome == Ok then Empty else form)
    ensures r.1 == Some(ThankYou) <==> outcome == Ok
    ensures r.1 == Some(TryAgain) <==> outcome == Throw
    ensures r.1 == None <==> outcome == NotOk
  {
    match outcome
    case Ok => (Empty, Some(ThankYou))
    case NotOk => (form, None)
    case Throw => (form, Some(TryAgain))
  }

  /** What happens to the form: the user types into an input, or a request
      sent by `handleSubmit` ends. `Send` marks the moment its response or
      rejection arrives, not the click: `handleSubmit` awaits the request, so
      an ok response also erases anything typed while it was in flight. */
  datatype Event = Input(name: string, value: string) | Send(outcome: Outcome)

  function Apply(form: Form, e: Event): Form {
    match e
    case Input(name, value) => Change(form, name, value)
    case Send(outcome) => Submit(form, outcome).0
  }

  function Replay(form: Form, events: seq<Event>): Form
    decreases |events|
  {
    if |events| == 0 then form else Replay(Apply(form, events[0]), events[1..])
  }

  /** The inputs the page renders carry only the six names. */
  predicate OnPage(e: Event) {
    e.Input? ==> e.name in FieldNames
  }

  /** Whatever the user types and however the requests end, the state keeps
      exactly the six fields. */
  lemma {:induction false} ReplayKeepsShape(form: Form, events: seq<Event>)
    requires WellShaped(form)
    requires forall k :: 0 <= k < |events| ==> OnPage(events[k])
    ensures WellShaped(Replay(form, events))
    decreases |events|
  {
    if |events| > 0 {
      var e := events[0];
      if e.Input? {
        ChangeKeepsShape(form, e.name, e.value);
      } else {
        EmptyIsBlank();
      }
      ReplayKeepsShape(Apply(form, e), events[1..]);
    }
  }

  lemma {:induction false} ReplayAppend(form: Form, a: seq<Event>, b: seq<Event>)
    ensures Replay(form, a + b) == Replay(Replay(form, a), b)
    decreases |a|
  {
    if |a| == 0 {
      assert a + b == b;
    } else {
      assert (a + b)[0] == a[0] && (a + b)[1..] == a[1..] + b;
      ReplayAppend(Apply(form, a[0]), a[1..], b);
    }
  }

  /** An ok response erases the history: what follows it is typed into a
      blank form, whatever came before. */
  lemma OkErasesHistory(form: Form, a: seq<Event>, b: seq<Event>)
    ensures Replay(form, a + [Send(Ok)] + b) == Replay(Empty, b)
  {
    ReplayAppend(form, a + [Send(Ok)], b);
    ReplayAppend(form, a, [Send(Ok)]);
  }

  /** A failed or rejected request can be deleted from the trace without
      changing the outcome. */
  lemma FailedSendDeletable(form: Form, a: seq<Event>, b: seq<Event>, outcome: Outcome)
    ensures outcome != Ok ==> Replay(form, a + [Send(outcome)] + b) == Replay(form, a + b)
  {
    ReplayAppend(form, a + [Send(outcome)], b);
    ReplayAppend(form, a, [Send(outcome)]);
    ReplayAppend(form, a, b);
  }

  /** The position of the latest ok response, if any. */
  function LastOk(events: seq<Event>): (r: Option<nat>)
    ensures r.Some? ==> r.value < |events| && events[r.value] == Send(Ok)
                        && forall k :: r.value < k < |events| ==> events[k] != Send(Ok)
    ensures r.None? ==> forall k :: 0 <= k < |events| ==> events[k] != Send(Ok)
    decreases |events|
  {
    if |events| == 0 then None
    else if events[|events| - 1] == Send(Ok) then Some(|events| - 1)
    else
      var r := LastOk(events[..|events| - 1]);
      assert forall k :: 0 <= k < |events| - 1 ==> events[..|events| - 1][k] == events[k];
      r
  }

  /** The typing alone: the input events, in order, with every send removed. */
  function Inputs(events: seq<Event>): (r: seq<Event>)
    ensures forall t :: 0 <= t < |r| ==> r[t].Input?
    ensures forall k :: 0 <= k < |events| && events[k].Input? ==> events[k] in r
    decreases |events|
  {
    if |events| == 0 then []
    else
      var rest := Inputs(events[1..]);
      assert forall k :: 1 <= k < |events| ==> events[k] == events[1..][k - 1];
      if events[0].Input? then [events[0]] + rest else rest
  }

  /** `Inputs` keeps the order of the input events and adds nothing: it
      distributes over concatenation, keeps a single input event and drops a
      single send. */
  lemma {:induction false} InputsAppend(a: seq<Event>, b: seq<Event>)
    ensures Inputs(a + b) == Inputs(a) + Inputs(b)
    ensures forall e :: Inputs([e]) == if e.Input? then [e] else []
    decreases |a|
  {
    forall e
      ensures Inputs([e]) == if e.Input? then [e] else []
    {
      assert [e][1..] == [];
    }
    if |a| == 0 {
      assert a + b == b;
    } else {
      assert (a + b)[0] == a[0] && (a + b)[1..] == a[1..] + b;
      InputsAppend(a[1..], b);
    }
  }

  /** The latest input to a field is the same whether the sends are in the
      trace or filtered out. */
  lemma {:induction false} InputsLast(events: seq<Event>, name: string)
    ensures match LastInput(events, name)
            case None => LastInput(Inputs(events), name).None?
            case Some(k) => LastInput(Inputs(events), name).Some?
                            && Inputs(events)[LastInput(Inputs(events), name).value] == events[k]
    decreases |events|
  {
    if |events| > 0 {
      var init := events[..|events| - 1];
      var e := events[|events| - 1];
      assert events == init + [e];
      InputsAppend(init, [e]);
      InputsLast(init, name);
      var typed := Inputs(events);
      assert events[..|events| - 1] == init;
      if e.Input? {
        assert typed == Inputs(init) + [e];
        assert typed[..|typed| - 1] == Inputs(init);
        if e.name == name {
          assert LastInput(events, name) == Some(|events| - 1);
          assert LastInput(typed, name) == Some(|typed| - 1);
        } else {
          assert LastInput(events, name) == LastInput(init, name);
          assert LastInput(typed, name) == LastInput(Inputs(init), name);
        }
      } else {
        assert typed == Inputs(init);
        assert LastInput(events, name) == LastInput(init, name);
      }
    }
  }

  /** Without an ok response, the sends change nothing: only the typing
      counts. */
  lemma {:induction false} InputsOnly(form: Form, events: seq<Event>)
    requires forall k :: 0 <= k < |events| ==> events[k] != Send(Ok)
    ensures Replay(form, events) == Replay(form, Inputs(events))
    decreases |events|
  {
    if |events| > 0 {
      var e := events[0];
      InputsOnly(Apply(form, e), events[1..]);
      if e.Input? {
        var r := [e] + Inputs(events[1..]);
        assert r[0] == e && r[1..] == Inputs(events[1..]);
      } else {
        InputsOnly(form, events[1..]);
      }
    }
  }

  /** After any events the state is the typing since the latest ok response,
      applied to a blank form; with no ok response it is all the typing,
      applied to the starting state. Failed and rejected requests leave no
      trace. */
  lemma ReplayReference(form: Form, events: seq<Event>)
    ensures Replay(form, events) == match LastOk(events)
                                    case None => Replay(form, Inputs(events))
                                    case Some(i) => Replay(Empty, Inputs(events[i + 1..]))
  {
    match LastOk(events)
    case None =>
      InputsOnly(form, events);
    case Some(i) =>
      var after := events[i + 1..];
      assert events == events[..i] + [Send(Ok)] + after;
      OkErasesHistory(form, events[..i], after);
      assert forall k :: 0 <= k < |after| ==> after[k] == events[i + 1 + k];
      InputsOnly(Empty, after);
  }

  /** The position of the latest input event to field `name`, if any. */
  function LastInput(events: seq<Event>, name: string): (r: Option<nat>)
    ensures r.Some? ==> r.value < |events| && events[r.value].Input? && events[r.value].name == name
                        && forall k :: r.value < k < |events| ==> !(events[k].Input? && events[k].name == name)
    ensures r.None? ==> forall k :: 0 <= k < |events| ==> !(events[k].Input? && events[k].name == name)
    decreases |events|
  {
    if |events| == 0 then None
    else if events[|events| - 1].Input? && events[|events| - 1].name == name then Some(|events| - 1)
    else
      var r := LastInput(events[..|events| - 1], name);
      assert forall k :: 0 <= k < |events| - 1 ==> events[..|events| - 1][k] == events[k];
      r
  }

  /** After typing alone, a field holds the value last typed into it, or its
      starting value when nothing was typed into it. */
  lemma {:induction false} TypedValue(form: Form, inputs: seq<Event>, name: string)
    requires forall t :: 0 <= t < |inputs| ==> inputs[t].Input?
    ensures var r := Replay(form, inputs);
            match LastInput(inputs, name)
            case Some(k) => name in r && r[name] == inputs[k].value
            case None => (name in r <==> name in form) && (name in form ==> r[name] == form[name])
    decreases |inputs|
  {
    if |inputs| > 0 {
      var init := inputs[..|inputs| - 1];
      var e := inputs[|inputs| - 1];
      assert inputs == init + [e];
      ReplayAppend(form, init, [e]);
      TypedValue(form, init, name);
    }
  }

  /** A field after any events: the value last typed into it since the
      latest ok response; without such typing, "" for one of the six fields
      after an ok response, or its starting value when there was none. */
  lemma FieldAfter(form: Form, events: seq<Event>, name: string)
    ensures var r := Replay(form, events);
            match LastOk(events)
            case Some(i) =>
              (match LastInput(events[i + 1..], name)
               case Some(k) => name in r && r[name] == events[i + 1 + k].value
               case None => (name in r <==> name in FieldNames) && (name in r ==> r[name] == ""))
            case None =>
              (match LastInput(events, name)
               case Some(k) => name in r && r[name] == events[k].value
               case None => (name in r <==> name in form) && (name in form ==> r[name] == form[name]))
  {
    ReplayReference(form, events);
    match LastOk(events)
    case Some(i) =>
      var after := events[i + 1..];
      TypedValue(Empty, Inputs(after), name);
      InputsLast(after, name);
      EmptyIsBlank();
    case None =>
      TypedValue(form, Inputs(events), name);
      InputsLast(events, name);
  }

  /** Directly after an ok response the form is blank; after a failed or
      rejected one it is what it was before sending. */
  lemma AfterSend(form: Form, events: seq<Event>, outcome: Outcome)
    ensures Replay(form, events + [Send(outcome)]) == (if outcome == Ok then Empty else Replay(form, events))
  {
    ReplayAppend(form, events, [Send(outcome)]);
  }
}

=== FILE: decrypt_text.dfy ===
/** The decrypt text effect: after a start delay an interval ticks; every tick
    shows the target text with a growing exact prefix and noise from a fixed
    alphabet everywhere else, and the tick on which the reveal counter reaches
    the text length is the last one.

    Time is modelled as the order of timer callbacks only. `Math.random` is a
    roll per position, an index into the alphabet. */
module DecryptText {

  /** `chars`: the noise alphabet. */
  const Chars: string := "ABCDEFGHIJKLMNOPQRSTUVWXYZabcdefghijklmnopqrstuvwxyz0123456789!@#$%^&*()_+"

  lemma CharsSize()
    ensures |Chars| == 74
  {
  }

  /** The `iteration` counter on tick `k` of a run (ticks counted from 0): it
      starts at 0 and grows by 1/3 after every tick. */
  function Iteration(k: nat): real {
    k as real / 3.0
  }

  /** Position `i` shows the text on tick `k`: `index < iteration`. */
  predicate Revealed(i: nat, k: nat) {
    (i as real) < Iteration(k)
  }

  /** Tick `k` clears its own interval: `iteration >= text.length`. */
  predicate IsLastTick(text: string, k: nat) {
    Iteration(k) >= |text| as real
  }

  /** In whole numbers: position `i` is exact on tick `k` iff `3 * i < k`, and
      tick `3 * |text|` is the first one that stops the interval. */
  lemma IntegerForms(text: string, i: nat, k: nat)
    ensures Revealed(i, k) <==> 3 * i < k
    ensures IsLastTick(text, k) <==> k >= 3 * |text|
  {
  }

  /** One roll per character of the text, each an alphabet index. */
  predicate ValidRolls(text: string, rolls: seq<nat>) {
    |rolls| == |text| && forall i :: 0 <= i < |rolls| ==> rolls[i] < |Chars|
  }

  /** The string one tick shows. */
  function Frame(text: string, k: nat, rolls: seq<nat>): (r: string)
    requires ValidRolls(text, rolls)
    ensures |r| == |text|
    ensures forall i :: 0 <= i < |text| && Revealed(i, k) ==> r[i] == text[i]
    ensures forall i :: 0 <= i < |text| && !Revealed(i, k) ==> r[i] in Chars
  {
    seq(|text|, i requires 0 <= i < |text| => if Revealed(i, k) then text[i] else Chars[rolls[i]])
  }

  /** What a tick may show: the text's length, the revealed positions exact,
      the others from the alphabet. */
  predicate Plausible(text: string, k: nat, s: string) {
    && |s| == |text|
    && (forall i :: 0 <= i < |s| && Revealed(i, k) ==> s[i] == text[i])
    && (forall i :: 0 <= i < |s| && !Revealed(i, k) ==> s[i] in Chars)
  }

  /** The position of `c` in the alphabet. */
  ghost function AlphabetIndex(c: char): (r: nat)
    requires c in Chars
    ensures r < |Chars| && Chars[r] == c
  {
    var i :| 0 <= i < |Chars| && Chars[i] == c;
    i
  }

  /** Every plausible string is shown for some rolls, and only those are. */
  lemma FrameExactlyPlausible(text: string, k: nat, s: string)
    ensures Plausible(text, k, s) <==> exists rolls :: ValidRolls(text, rolls) && Frame(text, k, rolls) == s
  {
    if Plausible(text, k, s) {
      var rolls := seq(|s|, i requires 0 <= i < |s| => if s[i] in Chars then AlphabetIndex(s[i]) else 0);
      assert ValidRolls(text, rolls);
      assert Frame(text, k, rolls) == s;
    }
  }

  /** How many leading positions are exact on tick `k`: `min(len, ceil(k/3))`. */
  function RevealedCount(len: nat, k: nat): (n: nat)
    ensures n <= len
    ensures forall i: nat :: i < len ==> (Revealed(i, k) <==> i < n)
  {
    if (k + 2) / 3 < len then (k + 2) / 3 else len
  }

  /** The exact prefix never shrinks from one tick to the next. */
  lemma RevealedCountGrows(len: nat, k: nat, k': nat)
    requires k <= k'
    ensures RevealedCount(len, k) <= RevealedCount(len, k')
  {
  }

  /** The state of one run's timers: the start timeout pending, the interval
      ticking with the tick count `k`, the interval cleared by its own last
      tick, or the timeout cleared by the cleanup before it fired. */
  datatype Timer = Waiting | Ticking(k: nat) | Finished | Cleared

  /** One execution of the effect, with the text it captured. */
  datatype Run = Run(text: string, timer: Timer)

  /** The run still has a scheduled callback. */
  predicate Active(r: Run) {
    r.timer.Waiting? || r.timer.Ticking?
  }

  /** One interval callback: the frame it shows and the run after it. */
  function Tick(r: Run, rolls: seq<nat>): (result: (Run, string))
    requires r.timer.Ticking? && ValidRolls(r.text, rolls)
    ensures result.0.text == r.text
    ensures IsLastTick(r.text, r.timer.k) ==> result.0.timer == Finished && result.1 == r.text
    ensures !IsLastTick(r.text, r.timer.k) ==> result.0.timer == Ticking(r.timer.k + 1)
  {
    var k := r.timer.k;
    var frame := Frame(r.text, k, rolls);
    if IsLastTick(r.text, k) then
      assert frame == r.text;
      (Run(r.text, Finished), frame)
    else (Run(r.text, Ticking(k + 1)), frame)
  }

  /** Every tick shows a frame that is plausible for its counter. */
  lemma TickPlausible(r: Run, rolls: seq<nat>)
    requires r.timer.Ticking? && ValidRolls(r.text, rolls)
    ensures Plausible(r.text, r.timer.k, Tick(r, rolls).1)
  {
  }

  /** Runs `m` ticks of a run whose interval has just started; `rolls[t]` are
      the rolls of tick `t`. */
  function TickMany(r: Run, rolls: seq<seq<nat>>): (Run, string)
    requires r.timer.Ticking?
    requires forall t :: 0 <= t < |rolls| ==> ValidRolls(r.text, rolls[t])
    decreases |rolls|
  {
    if |rolls| == 0 then (r, "")
    else
      var (r', frame) := Tick(r, rolls[0]);
      if r'.timer.Ticking? && |rolls| > 1 then TickMany(r', rolls[1..])
      else (r', frame)
  }

  /** From a fresh interval, the first `3 * |text|` ticks leave it running and
      the next one is the last: it shows the text exactly. */
  lemma {:induction false} TickManyCount(r: Run, rolls: seq<seq<nat>>, k: nat)
    requires r.timer == Ticking(k) && k <= 3 * |r.text|
    requires forall t :: 0 <= t < |rolls| ==> ValidRolls(r.text, rolls[t])
    requires 0 < |rolls| <= 3 * |r.text| + 1 - k
    ensures |rolls| < 3 * |r.text| + 1 - k ==> TickMany(r, rolls).0.timer == Ticking(k + |rolls|)
    ensures |rolls| == 3 * |r.text| + 1 - k ==> TickMany(r, rolls) == (Run(r.text, Finished), r.text)
    decreases |rolls|
  {
    var (r', frame) := Tick(r, rolls[0]);
    if |rolls| > 1 {
      assert !IsLastTick(r.text, k);
      TickManyCount(r', rolls[1..], k + 1);
    }
  }

  /** The effect's inputs; a change of any of them starts a new run. */
  datatype Props = Props(text: string, speed: int, delay: int)

  /** Which timers the cleanup function clears: the code clears the start
      timeout only; `ClearBoth` also clears the running interval. */
  datatype Policy = ClearTimeoutOnly | ClearBoth

  /** The component: its props, whether it is mounted, the `displayText` state,
      and every run the effect has started, the current one last. */
  datatype Effect = Effect(props: Props, mounted: bool, display: string, runs: seq<Run>)

  datatype Event =
    | TimeoutFires(run: nat)
    | IntervalFires(run: nat, rolls: seq<nat>)
    | Rerender(next: Props)
    | Unmount

  /** First render: `displayText` is "" and the start timeout is pending. */
  function Mount(p: Props): Effect {
    Effect(p, true, "", [Run(p.text, Waiting)])
  }

  /** The cleanup function run on a run. */
  function Cleanup(policy: Policy, r: Run): (c: Run)
    ensures c.text == r.text
    ensures !Active(c) <==> !Active(r) || policy == ClearBoth || r.timer.Waiting?
    ensures policy == ClearTimeoutOnly && r.timer.Ticking? ==> c == r
    ensures !Active(r) ==> c == r
    ensures Active(r) && !Active(c) ==> c.timer == Cleared
  {
    match r.timer
    case Waiting => Run(r.text, Cleared)
    case Ticking(_) => if policy == ClearBoth then Run(r.text, Cleared) else r
    case _ => r
  }

  /** The cleanup of the current (last) run. */
  function CleanupLast(policy: Policy, runs: seq<Run>): (rs: seq<Run>)
    ensures |rs| == |runs|
    ensures forall j :: 0 <= j < |runs| - 1 ==> rs[j] == runs[j]
    ensures |runs| > 0 ==> rs[|runs| - 1] == Cleanup(policy, runs[|runs| - 1])
  {
    if |runs| == 0 then runs else runs[..|runs| - 1] + [Cleanup(policy, runs[|runs| - 1])]
  }

  /** The rolls of an interval callback fit the text of its run. */
  predicate EventOk(s: Effect, e: Event) {
    e.IntervalFires? && e.run < |s.runs| ==> ValidRolls(s.runs[e.run].text, e.rolls)
  }

  function Step(policy: Policy, s: Effect, e: Event): Effect
    requires EventOk(s, e)
  {
    match e
    case TimeoutFires(j) =>
      if j < |s.runs| && s.runs[j].timer.Waiting? then
        s.(runs := s.runs[j := Run(s.runs[j].text, Ticking(0))])
      else s
    case IntervalFires(j, rolls) =>
      if j < |s.runs| && s.runs[j].timer.Ticking? then
        var (r', frame) := Tick(s.runs[j], rolls);
        s.(display := if s.mounted then frame else s.display, runs := s.runs[j := r'])
      else s
    case Rerender(p) =>
      if !s.mounted || p == s.props then s
      else Effect(p, true, s.display, CleanupLast(policy, s.runs) + [Run(p.text, Waiting)])
    case Unmount =>
      if !s.mounted then s
      else s.(mounted := false, runs := CleanupLast(policy, s.runs))
  }

  /** Every event of the trace is well formed in the state it meets. */
  predicate TraceOk(policy: Policy, s: Effect, events: seq<Event>)
    decreases |events|
  {
    |events| == 0 || (EventOk(s, events[0]) && TraceOk(policy, Step(policy, s, events[0]), events[1..]))
  }

  function Replay(policy: Policy, s: Effect, events: seq<Event>): Effect
    requires TraceOk(policy, s, events)
    decreases |events|
  {
    if |events| == 0 then s else Replay(policy, Step(policy, s, events[0]), events[1..])
  }

  /** Nothing has ticked yet: the display is still "" and no interval has
      started. */
  predicate Dormant(s: Effect) {
    s.display == "" && forall j :: 0 <= j < |s.runs| ==> s.runs[j].timer.Waiting? || s.runs[j].timer.Cleared?
  }

  /** Until some start timeout fires, nothing is shown and no interval runs,
      whatever else happens (re-renders, unmounting, stray interval events). */
  lemma {:induction false} NoTickBeforeDelay(policy: Policy, s: Effect, events: seq<Event>)
    requires Dormant(s)
    requires TraceOk(policy, s, events)
    requires forall t :: 0 <= t < |events| ==> !events[t].TimeoutFires?
    ensures Dormant(Replay(policy, s, events))
    decreases |events|
  {
    if |events| > 0 {
      var s' := Step(policy, s, events[0]);
      assert Dormant(s') by {
        match events[0]
        case Rerender(p) =>
          if s.mounted && p != s.props {
            var rs := CleanupLast(policy, s.runs);
            assert forall j :: 0 <= j < |rs| ==> rs[j].timer.Waiting? || rs[j].timer.Cleared?;
          }
        case Unmount =>
        case IntervalFires(_, _) =>
      }
      NoTickBeforeDelay(policy, s', events[1..]);
    }
  }

  /** A freshly mounted effect is dormant. */
  lemma MountDormant(p: Props)
    ensures Dormant(Mount(p)) && |Mount(p).runs| == 1 && Mount(p).display == ""
  {
  }

  /** Unmounted with every run cleared: no callback is left. */
  predicate Dead(s: Effect) {
    !s.mounted && forall j :: 0 <= j < |s.runs| ==> s.runs[j].timer.Cleared?
  }

  /** Mounted, nothing shown yet, the current run still waiting for its start
      timeout, and every earlier run cancelled by the re-render that replaced
      it before its own delay elapsed. */
  predicate Pending(s: Effect) {
    && s.mounted && |s.runs| > 0 && s.display == ""
    && s.runs[|s.runs| - 1].timer.Waiting?
    && forall j :: 0 <= j < |s.runs| - 1 ==> s.runs[j].timer.Cleared?
  }

  /** Still before any delay: pending, or torn down with nothing shown. */
  predicate Quiet(s: Effect) {
    Pending(s) || (Dead(s) && s.display == "")
  }

  lemma MountPending(p: Props)
    ensures Pending(Mount(p))
  {
  }

  /** One event other than a start timeout, met while pending: new props
      cancel the waiting run and start another one that waits, a stray
      interval callback does nothing, and unmounting leaves no callback at
      all, under either cleanup. */
  lemma PendingStep(policy: Policy, s: Effect, e: Event)
    requires Pending(s) && EventOk(s, e) && !e.TimeoutFires?
    ensures !e.Unmount? ==> Pending(Step(policy, s, e))
    ensures e.Unmount? ==> Dead(Step(policy, s, e)) && Step(policy, s, e).display == ""
  {
  }

  /** Until a start timeout fires, the effect stays quiet whatever happens. */
  lemma {:induction false} QuietStays(policy: Policy, s: Effect, events: seq<Event>)
    requires Quiet(s)
    requires TraceOk(policy, s, events)
    requires forall t :: 0 <= t < |events| ==> !events[t].TimeoutFires?
    ensures Quiet(Replay(policy, s, events))
    decreases |events|
  {
    if |events| > 0 {
      var s' := Step(policy, s, events[0]);
      if Pending(s) {
        PendingStep(policy, s, events[0]);
      } else {
        assert s' == s;
      }
      QuietStays(policy, s', events[1..]);
    }
  }

  /** Unmounting before the delay elapses, after any re-renders, stray
      interval callbacks or earlier unmounting: no callback is left, so no
      tick ever fires afterwards, under either cleanup, and the display
      stays "". */
  lemma CancelBeforeDelay(policy: Policy, p: Props, before: seq<Event>, after: seq<Event>)
    requires TraceOk(policy, Mount(p), before)
    requires forall t :: 0 <= t < |before| ==> !before[t].TimeoutFires?
    requires TraceOk(policy, Step(policy, Replay(policy, Mount(p), before), Unmount), after)
    ensures var u := Step(policy, Replay(policy, Mount(p), before), Unmount);
            && Dead(u) && u.display == ""
            && Replay(policy, u, after) == u
  {
    MountPending(p);
    QuietStays(policy, Mount(p), before);
    var s := Replay(policy, Mount(p), before);
    if Pending(s) {
      PendingStep(policy, s, Unmount);
    } else {
      assert Step(policy, s, Unmount) == s;
    }
    DeadStaysDead(policy, Step(policy, s, Unmount), after);
  }

  lemma {:induction false} DeadStaysDead(policy: Policy, s: Effect, events: seq<Event>)
    requires Dead(s)
    requires TraceOk(policy, s, events)
    ensures Replay(policy, s, events) == s
    decreases |events|
  {
    if |events| > 0 {
      assert Step(policy, s, events[0]) == s;
      DeadStaysDead(policy, s, events[1..]);
    }
  }

  /** Unmounting while the interval runs, at any counter: the code's cleanup
      leaves every run exactly as it was, so the interval keeps firing after
      teardown, advancing its counter (or finishing) without touching the
      display; clearing both timers stops the current run and nothing else. */
  lemma UnmountWhileTicking(s: Effect, rolls: seq<nat>)
    requires s.mounted && |s.runs| > 0 && s.runs[|s.runs| - 1].timer.Ticking?
    requires ValidRolls(s.runs[|s.runs| - 1].text, rolls)
    ensures var j := |s.runs| - 1;
            var r := s.runs[j];
            var u := Step(ClearTimeoutOnly, s, Unmount);
            && !u.mounted && u.runs == s.runs && u.display == s.display
            && var u' := Step(ClearTimeoutOnly, u, IntervalFires(j, rolls));
               && u'.display == s.display
               && (r.timer.k < 3 * |r.text| ==> u'.runs[j] == Run(r.text, Ticking(r.timer.k + 1)))
               && (r.timer.k >= 3 * |r.text| ==> u'.runs[j] == Run(r.text, Finished))
    ensures var u := Step(ClearBoth, s, Unmount);
            && !u.mounted && |u.runs| == |s.runs| && u.runs[|s.runs| - 1] == Run(s.runs[|s.runs| - 1].text, Cleared)
            && forall i :: 0 <= i < |s.runs| - 1 ==> u.runs[i] == s.runs[i]
  {
    var j := |s.runs| - 1;
    var u := Step(ClearTimeoutOnly, s, Unmount);
    assert u.runs == s.runs;
    StepInterval(ClearTimeoutOnly, u, j, rolls);
    IntegerForms(s.runs[j].text, 0, s.runs[j].timer.k);
  }

  /** New props start a new run from a pending timeout, whose interval then
      starts at iteration 0; the display is left as it was. */
  lemma RerenderRestarts(policy: Policy, s: Effect, p: Props)
    requires s.mounted && p != s.props
    ensures var s' := Step(policy, s, Rerender(p));
            && s'.props == p && s'.display == s.display
            && |s'.runs| == |s.runs| + 1
            && s'.runs[|s.runs|] == Run(p.text, Waiting)
            && Step(policy, s', TimeoutFires(|s.runs|)).runs[|s.runs|] == Run(p.text, Ticking(0))
  {
  }

  /** An empty text shows "" once and stops on the first tick. */
  lemma EmptyTextOneTick()
    ensures Tick(Run("", Ticking(0)), []) == (Run("", Finished), "")
  {
  }

  /** Only the current run may still tick, it belongs to the current text,
      and once it has finished the display is that text. */
  predicate Settled(s: Effect) {
    && |s.runs| > 0
    && s.runs[|s.runs| - 1].text == s.props.text
    && (forall j :: 0 <= j < |s.runs| - 1 ==> !Active(s.runs[j]))
    && (s.runs[|s.runs| - 1].timer == Finished ==> s.display == s.props.text)
  }

  /** With a cleanup that clears both timers, every event keeps the effect
      settled. */
  lemma StepSettled(s: Effect, e: Event)
    requires Settled(s) && EventOk(s, e)
    requires s.mounted || !Active(s.runs[|s.runs| - 1])
    ensures Settled(Step(ClearBoth, s, e))
    ensures var s' := Step(ClearBoth, s, e); s'.mounted || !Active(s'.runs[|s'.runs| - 1])
  {
    var s' := Step(ClearBoth, s, e);
    match e
    case TimeoutFires(j) =>
    case IntervalFires(j, rolls) =>
    case Rerender(p) =>
      if s.mounted && p != s.props {
        var rs := CleanupLast(ClearBoth, s.runs);
        assert s'.runs == rs + [Run(p.text, Waiting)];
        assert forall j :: 0 <= j < |rs| ==> !Active(rs[j]);
      }
    case Unmount =>
  }

  /** Corrected lifecycle: whatever happens after mounting, a finished current
      run means the display shows the current text. */
  lemma {:induction false} SettledShowsText(s: Effect, events: seq<Event>)
    requires Settled(s) && (s.mounted || !Active(s.runs[|s.runs| - 1]))
    requires TraceOk(ClearBoth, s, events)
    ensures Settled(Replay(ClearBoth, s, events))
    decreases |events|
  {
    if |events| > 0 {
      StepSettled(s, events[0]);
      SettledShowsText(Step(ClearBoth, s, events[0]), events[1..]);
    }
  }

  /** Every mounted effect starts settled. */
  lemma MountSettled(p: Props)
    ensures Settled(Mount(p)) && Mount(p).mounted
  {
  }

  /** Replaying two traces one after the other. */
  lemma {:induction false} ReplayAppend(policy: Policy, s: Effect, a: seq<Event>, b: seq<Event>)
    requires TraceOk(policy, s, a) && TraceOk(policy, Replay(policy, s, a), b)
    ensures TraceOk(policy, s, a + b)
    ensures Replay(policy, s, a + b) == Replay(policy, Replay(policy, s, a), b)
    decreases |a|
  {
    if |a| == 0 {
      assert a + b == b;
    } else {
      assert (a + b)[0] == a[0] && (a + b)[1..] == a[1..] + b;
      ReplayAppend(policy, Step(policy, s, a[0]), a[1..], b);
    }
  }

  /** Rolls of the first alphabet character at every position. */
  function Zeros(len: nat): (rolls: seq<nat>)
    ensures |rolls| == len && forall i :: 0 <= i < len ==> rolls[i] == 0
  {
    if len == 0 then [] else Zeros(len - 1) + [0]
  }

  /** Interval callbacks of run `j`, one per entry of `rolls`, in order. */
  function Intervals(j: nat, rolls: seq<seq<nat>>): (events: seq<Event>)
    ensures |events| == |rolls|
    ensures forall t :: 0 <= t < |rolls| ==> events[t] == IntervalFires(j, rolls[t])
  {
    if |rolls| == 0 then [] else [IntervalFires(j, rolls[0])] + Intervals(j, rolls[1..])
  }

  /** Every tick's rolls fit the text. */
  predicate AllValid(text: string, rolls: seq<seq<nat>>) {
    forall t :: 0 <= t < |rolls| ==> ValidRolls(text, rolls[t])
  }

  /** `m` copies of the same rolls. */
  function Repeat(x: seq<nat>, m: nat): (xs: seq<seq<nat>>)
    ensures |xs| == m && forall t :: 0 <= t < m ==> xs[t] == x
  {
    if m == 0 then [] else Repeat(x, m - 1) + [x]
  }

  /** `m` interval callbacks of run `j`, all rolling the first alphabet
      character. */
  function Ticks(j: nat, len: nat, m: nat): seq<Event> {
    Intervals(j, Repeat(Zeros(len), m))
  }

  /** What `m` ticks of run `j`, started at counter `k`, leave behind: only
      that run changed; it has advanced by `m`, or finished and shown its
      text. */
  predicate TicksDone(s: Effect, s': Effect, j: nat, k: nat, m: nat)
    requires j < |s.runs|
  {
    var text := s.runs[j].text;
    && s'.props == s.props && s'.mounted && |s'.runs| == |s.runs|
    && s'.runs == s.runs[j := s'.runs[j]]
    && (m < 3 * |text| + 1 - k ==> s'.runs[j] == Run(text, Ticking(k + m)))
    && (m == 3 * |text| + 1 - k ==> s'.runs[j] == Run(text, Finished) && s'.display == text)
  }

  /** Ticking one run of a mounted effect once per entry of `rolls`, whatever
      the noise rolled, advances its counter by that many ticks, and the tick
      that finishes it shows its text; nothing else changes. */
  lemma {:induction false} ReplayTicks(policy: Policy, s: Effect, j: nat, k: nat, rolls: seq<seq<nat>>) returns (s': Effect)
    requires s.mounted && j < |s.runs| && s.runs[j].timer == Ticking(k)
    requires 0 < |rolls| <= 3 * |s.runs[j].text| + 1 - k
    requires AllValid(s.runs[j].text, rolls)
    ensures TraceOk(policy, s, Intervals(j, rolls))
    ensures s' == Replay(policy, s, Intervals(j, rolls))
    ensures TicksDone(s, s', j, k, |rolls|)
    decreases |rolls|
  {
    var text := s.runs[j].text;
    var evs := Intervals(j, rolls);
    assert ValidRolls(text, rolls[0]);
    var s1 := FirstTick(policy, s, j, k, rolls[0]);
    assert evs[0] == IntervalFires(j, rolls[0]);
    if |rolls| == 1 {
      assert evs[1..] == [];
      ReplayCons(policy, s, evs);
      TicksDoneOne(s, s1, j, k);
      s' := s1;
    } else {
      assert evs[1..] == Intervals(j, rolls[1..]);
      assert AllValid(s1.runs[j].text, rolls[1..]);
      s' := ReplayTicks(policy, s1, j, k + 1, rolls[1..]);
      ReplayCons(policy, s, evs);
      TicksDoneStep(s, s1, s', j, k, |rolls|);
    }
  }

  /** The first of a run's ticks. */
  lemma FirstTick(policy: Policy, s: Effect, j: nat, k: nat, r: seq<nat>) returns (s1: Effect)
    requires s.mounted && j < |s.runs| && s.runs[j].timer == Ticking(k)
    requires ValidRolls(s.runs[j].text, r)
    ensures EventOk(s, IntervalFires(j, r))
    ensures s1 == Step(policy, s, IntervalFires(j, r))
    ensures s1.props == s.props && s1.mounted
    ensures k < 3 * |s.runs[j].text| ==> s1.runs == s.runs[j := Run(s.runs[j].text, Ticking(k + 1))]
    ensures k >= 3 * |s.runs[j].text| ==> s1.runs == s.runs[j := Run(s.runs[j].text, Finished)]
    ensures k >= 3 * |s.runs[j].text| ==> s1.display == s.runs[j].text
  {
    var text := s.runs[j].text;
    StepInterval(policy, s, j, r);
    IntegerForms(text, 0, k);
    s1 := Step(policy, s, IntervalFires(j, r));
  }

  /** One event in front of a trace. */
  lemma ReplayCons(policy: Policy, s: Effect, events: seq<Event>)
    requires |events| > 0 && EventOk(s, events[0])
    requires TraceOk(policy, Step(policy, s, events[0]), events[1..])
    ensures TraceOk(policy, s, events)
    ensures Replay(policy, s, events) == Replay(policy, Step(policy, s, events[0]), events[1..])
  {
  }

  /** A single tick. */
  lemma TicksDoneOne(s: Effect, s1: Effect, j: nat, k: nat)
    requires j < |s.runs| && s1.props == s.props && s1.mounted
    requires k < 3 * |s.runs[j].text| ==> s1.runs == s.runs[j := Run(s.runs[j].text, Ticking(k + 1))]
    requires k >= 3 * |s.runs[j].text| ==> s1.runs == s.runs[j := Run(s.runs[j].text, Finished)]
    requires k >= 3 * |s.runs[j].text| ==> s1.display == s.runs[j].text
    ensures TicksDone(s, s1, j, k, 1)
  {
  }

  /** The first of `m` ticks followed by the other `m - 1`. */
  lemma TicksDoneStep(s: Effect, s1: Effect, s': Effect, j: nat, k: nat, m: nat)
    requires j < |s.runs| && 1 < m
    requires s1.props == s.props && s1.mounted == s.mounted && s1.runs == s.runs[j := Run(s.runs[j].text, Ticking(k + 1))]
    requires TicksDone(s1, s', j, k + 1, m - 1)
    ensures TicksDone(s, s', j, k, m)
  {
    assert s1.runs[j].text == s.runs[j].text;
    assert s.runs[j := s'.runs[j]] == s1.runs[j := s'.runs[j]];
  }

  /** One interval callback of a ticking run. */
  lemma StepInterval(policy: Policy, s: Effect, j: nat, rolls: seq<nat>)
    requires j < |s.runs| && s.runs[j].timer.Ticking? && ValidRolls(s.runs[j].text, rolls)
    ensures EventOk(s, IntervalFires(j, rolls))
    ensures var t := Tick(s.runs[j], rolls);
            Step(policy, s, IntervalFires(j, rolls))
            == s.(display := if s.mounted then t.1 else s.display, runs := s.runs[j := t.0])
  {
  }

  /** The code as written: the text changes from "AB" to "A" after the first
      tick; the old interval keeps running, outlives the new one, and leaves
      "AB" on screen although the current text is "A". */
  lemma StaleRunWins()
    ensures TraceOk(ClearTimeoutOnly, Mount(Props("AB", 40, 0)), StaleTrace())
    ensures var s := Replay(ClearTimeoutOnly, Mount(Props("AB", 40, 0)), StaleTrace());
            && s.props.text == "A"
            && s.runs == [Run("AB", Finished), Run("A", Finished)]
            && s.display == "AB"
            && !Settled(s)
  {
    var pol := ClearTimeoutOnly;
    var s0 := Mount(Props("AB", 40, 0));
    var s4 := StaleStart();
    var s5 := NewRunFinishes(s4);
    var s6 := OldRunFinishes(s5);
    ReplayAppend(pol, s0, StartTrace(), Ticks(1, 1, 4));
    ReplayAppend(pol, s0, StartTrace() + Ticks(1, 1, 4), Ticks(0, 2, 6));
  }

  /** The new run's four ticks: it finishes and shows "A". */
  lemma NewRunFinishes(s4: Effect) returns (s5: Effect)
    requires s4.props.text == "A" && s4.mounted
    requires s4.runs == [Run("AB", Ticking(1)), Run("A", Ticking(0))]
    ensures TraceOk(ClearTimeoutOnly, s4, Ticks(1, 1, 4))
    ensures s5 == Replay(ClearTimeoutOnly, s4, Ticks(1, 1, 4))
    ensures s5.props.text == "A" && s5.mounted && s5.display == "A"
    ensures s5.runs == [Run("AB", Ticking(1)), Run("A", Finished)]
  {
    assert ValidRolls("A", Zeros(1));
    s5 := ReplayTicks(ClearTimeoutOnly, s4, 1, 0, Repeat(Zeros(1), 4));
  }

  /** The old run's remaining six ticks: it finishes last and shows "AB". */
  lemma OldRunFinishes(s5: Effect) returns (s6: Effect)
    requires s5.props.text == "A" && s5.mounted
    requires s5.runs == [Run("AB", Ticking(1)), Run("A", Finished)]
    ensures TraceOk(ClearTimeoutOnly, s5, Ticks(0, 2, 6))
    ensures s6 == Replay(ClearTimeoutOnly, s5, Ticks(0, 2, 6))
    ensures s6.props.text == "A" && s6.display == "AB"
    ensures s6.runs == [Run("AB", Finished), Run("A", Finished)]
  {
    assert ValidRolls("AB", Zeros(2));
    s6 := ReplayTicks(ClearTimeoutOnly, s5, 0, 1, Repeat(Zeros(2), 6));
  }

  /** Mount "AB", start, one tick, change the text to "A", start again. */
  function StartTrace(): seq<Event> {
    [TimeoutFires(0), IntervalFires(0, [0, 0]), Rerender(Props("A", 40, 0)), TimeoutFires(1)]
  }

  /** After the start of the stale trace both intervals are running. */
  lemma StaleStart() returns (s4: Effect)
    ensures TraceOk(ClearTimeoutOnly, Mount(Props("AB", 40, 0)), StartTrace())
    ensures s4 == Replay(ClearTimeoutOnly, Mount(Props("AB", 40, 0)), StartTrace())
    ensures s4.props.text == "A" && s4.mounted
    ensures s4.runs == [Run("AB", Ticking(1)), Run("A", Ticking(0))]
  {
    var pol := ClearTimeoutOnly;
    var start := StartTrace();
    var s0 := Mount(Props("AB", 40, 0));
    var s2 := StartFirstTick();
    var s3, s4' := StartRerender(s2);
    s4 := s4';
    assert start[3..][1..] == [];
    ReplayCons(pol, s3, start[3..]);
    assert start[2..][1..] == start[3..];
    ReplayCons(pol, s2, start[2..]);
    assert start[1..][1..] == start[2..];
    ReplayCons(pol, Step(pol, s0, start[0]), start[1..]);
    ReplayCons(pol, s0, start);
  }

  /** The start timeout of "AB" fires and its interval ticks once. */
  lemma StartFirstTick() returns (s2: Effect)
    ensures var s0 := Mount(Props("AB", 40, 0));
            && EventOk(s0, StartTrace()[0])
            && EventOk(Step(ClearTimeoutOnly, s0, StartTrace()[0]), StartTrace()[1])
            && s2 == Step(ClearTimeoutOnly, Step(ClearTimeoutOnly, s0, StartTrace()[0]), StartTrace()[1])
    ensures s2.props == Props("AB", 40, 0) && s2.mounted && s2.runs == [Run("AB", Ticking(1))]
  {
    var pol := ClearTimeoutOnly;
    var s1 := Step(pol, Mount(Props("AB", 40, 0)), TimeoutFires(0));
    assert s1.runs == [Run("AB", Ticking(0))];
    StepInterval(pol, s1, 0, [0, 0]);
    IntegerForms("AB", 0, 0);
    s2 := Step(pol, s1, IntervalFires(0, [0, 0]));
  }

  /** The text changes to "A" and the new run's timeout fires. */
  lemma StartRerender(s2: Effect) returns (s3: Effect, s4: Effect)
    requires s2.props == Props("AB", 40, 0) && s2.mounted && s2.runs == [Run("AB", Ticking(1))]
    ensures EventOk(s2, StartTrace()[2]) && s3 == Step(ClearTimeoutOnly, s2, StartTrace()[2])
    ensures EventOk(s3, StartTrace()[3]) && s4 == Step(ClearTimeoutOnly, s3, StartTrace()[3])
    ensures s4.props.text == "A" && s4.mounted
    ensures s4.runs == [Run("AB", Ticking(1)), Run("A", Ticking(0))]
  {
    var pol := ClearTimeoutOnly;
    s3 := Step(pol, s2, Rerender(Props("A", 40, 0)));
    assert s3.runs == [Run("AB", Ticking(1)), Run("A", Waiting)];
    s4 := Step(pol, s3, TimeoutFires(1));
  }

  /** The start trace, then four ticks of the new run (the fourth is its
      last), then six more ticks of the old run (the sixth is its last). */
  function StaleTrace(): seq<Event> {
    StartTrace() + Ticks(1, 1, 4) + Ticks(0, 2, 6)
  }
}

=== FILE: ecma_string.dfy ===
/** The few ECMAScript string operations the site's components rely on:
    `String(n)` for a non-negative integer (Number::toString, section 6.1.6.1.20
    of ECMA-262 2024), `String.prototype.padStart` (section 22.1.3.17),
    `String.prototype.split` with a string separator (section 22.1.3.23) and the
    `StringIndexOf` abstract operation it is built on (section 6.1.4.1).
    A JavaScript string is a sequence of UTF-16 code units, while a Dafny
    `char` is a Unicode scalar value: one `char` stands for one code unit
    outside the surrogate range, and text with a character outside the Basic
    Multilingual Plane is not represented. */
module EcmaString {

  /** `p` occurs in `s` starting at position `i`. */
  predicate OccursAt(s: string, p: string, i: int) {
    0 <= i && i + |p| <= |s| && s[i..i + |p|] == p
  }

  /** StringIndexOf(s, p, from): the least position at or after `from` where `p`
      occurs in `s`, or -1 when there is none. */
  function IndexOf(s: string, p: string, from: nat): (r: int)
    ensures r == -1 || (from <= r && OccursAt(s, p, r))
    decreases |s| - from
  {
    if from + |p| > |s| then -1
    else if s[from..from + |p|] == p then from
    else IndexOf(s, p, from + 1)
  }

  /** The position found is the first one: no occurrence lies between `from`
      and it, and -1 means none lies at or after `from`. */
  lemma {:induction false} IndexOfLeast(s: string, p: string, from: nat)
    ensures IndexOf(s, p, from) == -1 ==> forall i :: from <= i ==> !OccursAt(s, p, i)
    ensures IndexOf(s, p, from) != -1 ==> forall i :: from <= i < IndexOf(s, p, from) ==> !OccursAt(s, p, i)
    decreases |s| - from
  {
    if from + |p| <= |s| && s[from..from + |p|] != p {
      IndexOfLeast(s, p, from + 1);
    }
  }

  /** `"s".split(sep)` with the limit argument left undefined. */
  function Split(s: string, sep: string): (parts: seq<string>)
  {
    if |sep| == 0 then
      seq(|s|, i requires 0 <= i < |s| => [s[i]])
    else
      SplitFrom(s, sep, 0)
  }

  /** The loop of the split algorithm, started at position `i` of `s`. */
  function SplitFrom(s: string, sep: string, i: nat): (parts: seq<string>)
    requires |sep| > 0 && i <= |s|
    ensures |parts| >= 1
    decreases |s| - i
  {
    var j := IndexOf(s, sep, i);
    if j == -1 then [s[i..]]
    else [s[i..j]] + SplitFrom(s, sep, j + |sep|)
  }

  /** The parts joined back together with `sep` between consecutive parts and
      not after the last one (what `Array.prototype.join(sep)` returns). */
  function Join(parts: seq<string>, sep: string): string
  {
    if |parts| == 0 then []
    else if |parts| == 1 then parts[0]
    else parts[0] + sep + Join(parts[1..], sep)
  }

  /** Split followed by Join is the identity, for every separator. */
  lemma {:induction false} JoinSplit(s: string, sep: string)
    ensures Join(Split(s, sep), sep) == s
  {
    if |sep| == 0 {
      JoinSingletons(s);
    } else {
      JoinSplitFrom(s, sep, 0);
    }
  }

  lemma {:induction false} JoinSingletons(s: string)
    ensures Join(seq(|s|, i requires 0 <= i < |s| => [s[i]]), []) == s
    decreases |s|
  {
    var parts := seq(|s|, i requires 0 <= i < |s| => [s[i]]);
    if |s| > 1 {
      assert parts[1..] == seq(|s[1..]|, i requires 0 <= i < |s[1..]| => [s[1..][i]]);
      JoinSingletons(s[1..]);
      assert s == [s[0]] + s[1..];
    }
  }

  lemma {:induction false} JoinSplitFrom(s: string, sep: string, i: nat)
    requires |sep| > 0 && i <= |s|
    ensures Join(SplitFrom(s, sep, i), sep) == s[i..]
    decreases |s| - i
  {
    var j := IndexOf(s, sep, i);
    if j == -1 {
      assert SplitFrom(s, sep, i) == [s[i..]];
    } else {
      var k := j + |sep|;
      var rest := SplitFrom(s, sep, k);
      JoinSplitFrom(s, sep, k);
      assert SplitFrom(s, sep, i) == [s[i..j]] + rest;
      JoinCons(s[i..j], rest, sep);
      assert s[j..k] == sep;
      SliceAround(s, i, j, k);
    }
  }

  /** Joining a part in front of at least one more part. */
  lemma JoinCons(part: string, rest: seq<string>, sep: string)
    requires |rest| > 0
    ensures Join([part] + rest, sep) == part + sep + Join(rest, sep)
  {
    assert ([part] + rest)[1..] == rest;
  }

  /** A suffix cut in three at `j` and `k`. */
  lemma SliceAround(s: string, i: nat, j: nat, k: nat)
    requires i <= j <= k <= |s|
    ensures s[i..] == s[i..j] + s[j..k] + s[k..]
  {
  }

  /** An occurrence inside a slice is an occurrence in the whole string. */
  lemma OccursInSlice(s: string, p: string, a: nat, b: nat, t: int)
    requires a <= b <= |s| && OccursAt(s[a..b], p, t)
    ensures OccursAt(s, p, a + t)
  {
    var u := s[a..b];
    assert forall k :: 0 <= k < |p| ==> p[k] == u[t + k] == s[a + t + k];
    assert s[a + t..a + t + |p|] == p;
  }

  /** No part of a split holds the separator: the split cuts at every
      occurrence it scans over. */
  lemma {:induction false} SplitPartsFree(s: string, sep: string, i: nat)
    requires |sep| > 0 && i <= |s|
    ensures forall k, t :: 0 <= k < |SplitFrom(s, sep, i)| ==> !OccursAt(SplitFrom(s, sep, i)[k], sep, t)
    decreases |s| - i
  {
    var parts := SplitFrom(s, sep, i);
    var j := IndexOf(s, sep, i);
    IndexOfLeast(s, sep, i);
    if j == -1 {
      forall t | OccursAt(s[i..], sep, t)
        ensures false
      {
        assert s[i..] == s[i..|s|];
        OccursInSlice(s, sep, i, |s|, t);
      }
    } else {
      var rest := SplitFrom(s, sep, j + |sep|);
      SplitPartsFree(s, sep, j + |sep|);
      assert parts == [s[i..j]] + rest;
      assert forall k :: 1 <= k < |parts| ==> parts[k] == rest[k - 1];
      forall k, t | 0 <= k < |parts| && OccursAt(parts[k], sep, t)
        ensures false
      {
        if k == 0 {
          OccursInSlice(s, sep, i, j, t);
        }
      }
    }
  }

  /** With a non-empty separator, the split has more than one part exactly
      when the separator occurs in the string. */
  lemma SplitManyIffOccurs(s: string, sep: string)
    requires |sep| > 0
    ensures |Split(s, sep)| > 1 <==> exists i :: OccursAt(s, sep, i)
  {
    var j := IndexOf(s, sep, 0);
    IndexOfLeast(s, sep, 0);
    if j != -1 {
      assert OccursAt(s, sep, j);
    }
  }

  /** When the separator occurs at exactly one position `a`, the split is the
      text before it and the text after it. */
  lemma SplitAtUnique(s: string, sep: string, a: nat)
    requires |sep| > 0
    requires OccursAt(s, sep, a)
    requires forall i :: OccursAt(s, sep, i) ==> i == a
    ensures Split(s, sep) == [s[..a], s[a + |sep|..]]
  {
    var j := IndexOf(s, sep, 0);
    IndexOfLeast(s, sep, 0);
    assert j == a;
    assert IndexOf(s, sep, a + |sep|) == -1;
    assert SplitFrom(s, sep, a + |sep|) == [s[a + |sep|..]];
    assert s[0..a] == s[..a];
  }

  /** `s.padStart(maxLength, fill)`: when `s` is shorter than `maxLength` and
      `fill` is not empty, `fill` is repeated and truncated to the missing
      length and put in front of `s`; otherwise `s` comes back unchanged. */
  function PadStart(s: string, maxLength: int, fill: string): (r: string)
    ensures |fill| > 0 && maxLength > |s| ==> |r| == maxLength
    ensures |fill| == 0 || maxLength <= |s| ==> r == s
    ensures |r| >= |s| && r[|r| - |s|..] == s
    ensures forall k :: 0 <= k < |r| - |s| ==> r[k] == fill[k % |fill|]
  {
    if maxLength <= |s| || |fill| == 0 then s
    else
      var filler := seq(maxLength - |s|, k requires 0 <= k < maxLength - |s| => fill[k % |fill|]);
      filler + s
  }

  /** The decimal digit for `d`. */
  function DigitChar(d: nat): (c: char)
    requires d < 10
    ensures '0' <= c <= '9'
  {
    "0123456789"[d]
  }

  predicate IsDigit(c: char) {
    '0' <= c <= '9'
  }

  function DigitValue(c: char): nat
    requires IsDigit(c)
  {
    (c as int - '0' as int) as nat
  }

  /** `String(n)`: the shortest decimal representation of `n`. */
  function DecimalString(n: nat): (r: string)
    ensures |r| >= 1 && forall k :: 0 <= k < |r| ==> IsDigit(r[k])
    ensures |r| > 1 ==> r[0] != '0'
    ensures n < 10 <==> |r| == 1
    decreases n
  {
    if n < 10 then [DigitChar(n)]
    else DecimalString(n / 10) + [DigitChar(n % 10)]
  }

  /** The value of a string of decimal digits. */
  function ParseDecimal(s: string): nat
    requires forall k :: 0 <= k < |s| ==> IsDigit(s[k])
  {
    if |s| == 0 then 0
    else 10 * ParseDecimal(s[..|s| - 1]) + DigitValue(s[|s| - 1])
  }

  /** Reading back what `String(n)` wrote gives `n`. */
  lemma {:induction false} ParseDecimalString(n: nat)
    ensures ParseDecimal(DecimalString(n)) == n
    decreases n
  {
    var s := DecimalString(n);
    if n < 10 {
      assert DigitValue(DigitChar(n)) == n;
    } else {
      ParseDecimalString(n / 10);
      assert s[..|s| - 1] == DecimalString(n / 10);
      assert DigitValue(DigitChar(n % 10)) == n % 10;
    }
  }

  /** Leading zeros do not change the value of a digit string. */
  lemma {:induction false} ParseLeadingZeros(z: string, s: string)
    requires forall k :: 0 <= k < |z| ==> z[k] == '0'
    requires forall k :: 0 <= k < |s| ==> IsDigit(s[k])
    ensures forall k :: 0 <= k < |z + s| ==> IsDigit((z + s)[k])
    ensures ParseDecimal(z + s) == ParseDecimal(s)
    decreases |s|
  {
    if |s| == 0 {
      assert z + s == z;
      ParseZeros(z);
    } else {
      var t := z + s;
      assert t[..|t| - 1] == z + s[..|s| - 1];
      ParseLeadingZeros(z, s[..|s| - 1]);
    }
  }

  lemma {:induction false} ParseZeros(z: string)
    requires forall k :: 0 <= k < |z| ==> z[k] == '0'
    ensures forall k :: 0 <= k < |z| ==> IsDigit(z[k])
    ensures ParseDecimal(z) == 0
    decreases |z|
  {
    if |z| > 0 {
      ParseZeros(z[..|z| - 1]);
    }
  }

  /** `String(n).padStart(width, '0')`: at least `width` digits, the number
      itself is recoverable, and shorter numbers get leading zeros only. */
  function ZeroPad(n: nat, width: int): (r: string)
    ensures |r| == if |DecimalString(n)| < width then width else |DecimalString(n)|
    ensures forall k :: 0 <= k < |r| ==> IsDigit(r[k])
    ensures ParseDecimal(r) == n
  {
    var d := DecimalString(n);
    var r := PadStart(d, width, "0");
    assert r == r[..|r| - |d|] + d;
    ParseLeadingZeros(r[..|r| - |d|], d);
    ParseDecimalString(n);
    r
  }

  /** A one-digit number padded to two places is a '0' and its digit. */
  lemma ZeroPadOneDigit(n: nat)
    requires n < 10
    ensures ZeroPad(n, 2) == ['0', DigitChar(n)]
  {
  }
}

=== FILE: mission_scroll.dfy ===
/** The mission section: three numbered sections whose paragraph is split on
    the section's highlight word, with the word re-inserted as a highlighted
    span between consecutive parts; the zero-padded mono label; and the
    sticky column's digits. */
module MissionScroll {
  import opened EcmaString

  datatype Section = Section(id: string, number: string, title: string, text: string, highlight: string)

  /* The paragraphs are written as concatenations of short pieces only so
     that the verifier can index them; each is the same string as one
     literal. */

  const MissionText: string :=
    "To " + "empower" + " individuals through" + " innovative AI-driven" + " assistive technologies,"
    + " fostering a world" + " where everyone has" + " the tools to achieve" + " their full potential"
    + " independently."

  const VisionText: string :=
    "A " + "future" + " where technology" + " seamlessly integrates" + " with human capability,"
    + " breaking down barriers" + " and" + " redefining" + " the boundaries" + " of"
    + " what is possible" + " for" + " people with disabilities."

  const ValuesText: string :=
    "Innovation" + ", Empathy, and " + "Integrity" + ". We prioritize meaningful" + " impact, user-centric"
    + " design, and the ethical" + " development of technology" + " to serve humanity."

  const Sections: seq<Section> := [
    Section("mission", "01", "Our Mission", MissionText, "empower"),
    Section("vision", "02", "Our Vision", VisionText, "future"),
    Section("values", "03", "Our Values", ValuesText, "Innovation")
  ]

  /** A piece of the rendered paragraph: plain text, or the highlight span. */
  datatype Fragment = Plain(s: string) | Highlighted(s: string)

  /** Each part followed by a highlight span, except after the last part:
      the even positions hold the parts in order, the odd ones the spans. */
  function Interleave(parts: seq<string>, highlight: string): (frags: seq<Fragment>)
    ensures |parts| > 0 ==> |frags| == 2 * |parts| - 1
    ensures |parts| == 0 ==> frags == []
    decreases |parts|
  {
    if |parts| == 0 then []
    else if |parts| == 1 then [Plain(parts[0])]
    else [Plain(parts[0]), Highlighted(highlight)] + Interleave(parts[1..], highlight)
  }

  /** The fragments alternate: part `k` at position `2k`, a highlight span at
      every odd position, and nothing after the last part. */
  lemma {:induction false} InterleaveShape(parts: seq<string>, highlight: string)
    ensures var frags := Interleave(parts, highlight);
            && (forall k :: 0 <= k < |frags| && k % 2 == 0 ==> frags[k] == Plain(parts[k / 2]))
            && (forall k :: 0 <= k < |frags| && k % 2 == 1 ==> frags[k] == Highlighted(highlight))
    decreases |parts|
  {
    if |parts| > 1 {
      var rest := Interleave(parts[1..], highlight);
      var frags := [Plain(parts[0]), Highlighted(highlight)] + rest;
      assert Interleave(parts, highlight) == frags;
      InterleaveShape(parts[1..], highlight);
      forall k | 2 <= k < |frags|
        ensures frags[k] == rest[k - 2]
        ensures k % 2 == 0 ==> parts[1..][(k - 2) / 2] == parts[k / 2]
        ensures (k - 2) % 2 == k % 2
      {
      }
    }
  }

  /** `text.split(highlight).map(...)`: the paragraph's fragments. */
  function Paragraph(text: string, highlight: string): seq<Fragment> {
    Interleave(Split(text, highlight), highlight)
  }

  /** What the paragraph reads: its fragments' text one after the other. */
  function TextOf(frags: seq<Fragment>): string
    decreases |frags|
  {
    if |frags| == 0 then [] else frags[0].s + TextOf(frags[1..])
  }

  /** The number of highlight spans. */
  function HighlightCount(frags: seq<Fragment>): nat
    decreases |frags|
  {
    if |frags| == 0 then 0 else (if frags[0].Highlighted? then 1 else 0) + HighlightCount(frags[1..])
  }

  /** The fragments read as the parts joined with the highlight, with one
      span fewer than there are parts. */
  lemma {:induction false} InterleaveReads(parts: seq<string>, highlight: string)
    ensures TextOf(Interleave(parts, highlight)) == Join(parts, highlight)
    ensures |parts| > 0 ==> HighlightCount(Interleave(parts, highlight)) == |parts| - 1
    decreases |parts|
  {
    if |parts| > 1 {
      var rest := Interleave(parts[1..], highlight);
      var frags := [Plain(parts[0]), Highlighted(highlight)] + rest;
      assert Interleave(parts, highlight) == frags;
      InterleaveReads(parts[1..], highlight);
      assert frags[1..] == [Highlighted(highlight)] + rest;
      assert frags[1..][1..] == rest;
    }
  }

  /** The paragraph reads exactly the section text, whatever the highlight. */
  lemma ParagraphReadsText(text: string, highlight: string)
    ensures TextOf(Paragraph(text, highlight)) == text
  {
    InterleaveReads(Split(text, highlight), highlight);
    JoinSplit(text, highlight);
  }

  /** There is one highlight span fewer than there are parts, every span
      holds the highlight, and (for a non-empty highlight) no plain part
      contains it, so every occurrence in the text is a span. */
  lemma ParagraphHighlights(text: string, highlight: string)
    requires |highlight| > 0
    ensures var parts := Split(text, highlight);
            HighlightCount(Paragraph(text, highlight)) == |parts| - 1
    ensures forall f, t :: f in Paragraph(text, highlight) && f.Plain? ==> !OccursAt(f.s, highlight, t)
    ensures forall f :: f in Paragraph(text, highlight) && f.Highlighted? ==> f.s == highlight
  {
    var parts := Split(text, highlight);
    var frags := Paragraph(text, highlight);
    InterleaveReads(parts, highlight);
    InterleaveShape(parts, highlight);
    SplitPartsFree(text, highlight, 0);
    forall f, t | f in frags && f.Plain?
      ensures !OccursAt(f.s, highlight, t)
    {
      var i :| 0 <= i < |frags| && frags[i] == f;
      assert f.s == parts[i / 2];
    }
  }

  /** Every position of `c` in `s` is in `P`. */
  predicate MarksWithin(s: string, c: char, P: set<int>) {
    forall j :: 0 <= j < |s| && s[j] == c ==> j in P
  }

  /** Appending a piece without `c` adds no position of `c`. */
  lemma MarksAbsent(a: string, b: string, c: char, P: set<int>)
    requires MarksWithin(a, c, P) && c !in b
    ensures MarksWithin(a + b, c, P)
  {
    forall j | 0 <= j < |a + b| && (a + b)[j] == c
      ensures j in P
    {
      assert j < |a|;
    }
  }

  /** Appending a piece holding `c` only at `t` adds that one position. */
  lemma MarksOnce(a: string, b: string, c: char, P: set<int>, t: nat)
    requires MarksWithin(a, c, P)
    requires forall j :: 0 <= j < |b| && b[j] == c ==> j == t
    ensures MarksWithin(a + b, c, P + {|a| + t})
  {
    forall j | 0 <= j < |a + b| && (a + b)[j] == c
      ensures j in P + {|a| + t}
    {
      if j >= |a| {
        assert b[j - |a|] == c;
      }
    }
  }

  /** The highlight occurs in the text only at `a`, shown by a marker: every
      occurrence has `p[k]` at offset `k`, and every other place that
      character appears is known not to start an occurrence. */
  lemma OnlyOccurrence(s: string, p: string, a: nat, k: nat, marks: set<int>)
    requires OccursAt(s, p, a) && k < |p|
    requires MarksWithin(s, p[k], marks)
    requires forall j :: j in marks && j != a + k ==> !OccursAt(s, p, j - k)
    ensures forall i :: OccursAt(s, p, i) ==> i == a
  {
    forall i | OccursAt(s, p, i)
      ensures i == a
    {
      assert s[i..i + |p|][k] == s[i + k];
    }
  }

  /** With the highlight occurring exactly once, the paragraph is the text
      before it, one span, and the text after it. */
  lemma OneSpan(text: string, highlight: string, a: nat)
    requires |highlight| > 0 && OccursAt(text, highlight, a)
    requires forall i :: OccursAt(text, highlight, i) ==> i == a
    ensures Paragraph(text, highlight)
            == [Plain(text[..a]), Highlighted(highlight), Plain(text[a + |highlight|..])]
    ensures HighlightCount(Paragraph(text, highlight)) == 1
  {
    SplitAtUnique(text, highlight, a);
    InterleaveReads(Split(text, highlight), highlight);
  }

  /* Where the marker character of each highlight appears in its text. Each
     lemma below extends an arbitrary prefix, so that the verifier never
     unfolds a whole paragraph at once. */

  lemma MissionTail(s: string, P: set<int>)
    requires MarksWithin(s, 'm', P)
    ensures MarksWithin(s + " individuals through" + " innovative AI-driven" + " assistive technologies,"
                          + " fostering a world" + " where everyone has" + " the tools to achieve"
                          + " their full potential" + " independently.", 'm', P)
  {
    var s := s;
    MarksAbsent(s, " individuals through", 'm', P); s := s + " individuals through";
    MarksAbsent(s, " innovative AI-driven", 'm', P); s := s + " innovative AI-driven";
    MarksAbsent(s, " assistive technologies,", 'm', P); s := s + " assistive technologies,";
    MarksAbsent(s, " fostering a world", 'm', P); s := s + " fostering a world";
    MarksAbsent(s, " where everyone has", 'm', P); s := s + " where everyone has";
    MarksAbsent(s, " the tools to achieve", 'm', P); s := s + " the tools to achieve";
    MarksAbsent(s, " their full potential", 'm', P); s := s + " their full potential";
    MarksAbsent(s, " independently.", 'm', P);
  }

  lemma MissionMarks()
    ensures MarksWithin(MissionText, 'm', {4})
  {
    assert forall t :: 0 <= t < |"empower"| && "empower"[t] == 'm' ==> t == 1;
    MarksAbsent([], "To ", 'm', {});
    assert [] + "To " == "To ";
    MarksOnce("To ", "empower", 'm', {}, 1);
    MissionTail("To " + "empower", {4});
  }

  lemma VisionMiddle(s: string, P: set<int>)
    requires MarksWithin(s, 'f', P)
    ensures MarksWithin(s + " where technology" + " seamlessly integrates" + " with human capability,"
                          + " breaking down barriers" + " and", 'f', P)
  {
    var s := s;
    MarksAbsent(s, " where technology", 'f', P); s := s + " where technology";
    MarksAbsent(s, " seamlessly integrates", 'f', P); s := s + " seamlessly integrates";
    MarksAbsent(s, " with human capability,", 'f', P); s := s + " with human capability,";
    MarksAbsent(s, " breaking down barriers", 'f', P); s := s + " breaking down barriers";
    MarksAbsent(s, " and", 'f', P);
  }

  lemma VisionRedefining(s: string, P: set<int>)
    requires MarksWithin(s, 'f', P)
    ensures MarksWithin(s + " redefining" + " the boundaries" + " of", 'f', P + {|s| + 5} + {|s| + 28})
  {
    var s, P := s, P;
    assert forall t :: 0 <= t < |" redefining"| && " redefining"[t] == 'f' ==> t == 5;
    MarksOnce(s, " redefining", 'f', P, 5); P := P + {|s| + 5}; s := s + " redefining";
    MarksAbsent(s, " the boundaries", 'f', P); s := s + " the boundaries";
    assert forall t :: 0 <= t < |" of"| && " of"[t] == 'f' ==> t == 2;
    MarksOnce(s, " of", 'f', P, 2);
  }

  lemma VisionPossible(s: string, P: set<int>)
    requires MarksWithin(s, 'f', P)
    ensures MarksWithin(s + " what is possible" + " for" + " people with disabilities.", 'f', P + {|s| + 18})
  {
    var s, P := s, P;
    MarksAbsent(s, " what is possible", 'f', P); s := s + " what is possible";
    assert forall t :: 0 <= t < |" for"| && " for"[t] == 'f' ==> t == 1;
    MarksOnce(s, " for", 'f', P, 1); P := P + {|s| + 1}; s := s + " for";
    MarksAbsent(s, " people with disabilities.", 'f', P);
  }

  lemma VisionMarks()
    ensures MarksWithin(VisionText, 'f', {2, 102, 125, 144})
  {
    var s := "A " + "future" + " where technology" + " seamlessly integrates" + " with human capability,"
             + " breaking down barriers" + " and";
    assert MarksWithin(s, 'f', {2}) && |s| == 97 by {
      assert forall t :: 0 <= t < |"future"| && "future"[t] == 'f' ==> t == 0;
      MarksAbsent([], "A ", 'f', {});
      assert [] + "A " == "A ";
      MarksOnce("A ", "future", 'f', {}, 0);
      VisionMiddle("A " + "future", {2});
    }
    var s' := s + " redefining" + " the boundaries" + " of";
    assert MarksWithin(s', 'f', {2, 102, 125}) && |s'| == 126 by {
      VisionRedefining(s, {2});
      assert {2} + {|s| + 5} + {|s| + 28} == {2, 102, 125};
    }
    VisionPossible(s', {2, 102, 125});
    assert {2, 102, 125} + {|s'| + 18} == {2, 102, 125, 144};
  }

  lemma ValuesTail(s: string, P: set<int>)
    requires MarksWithin(s, 'I', P)
    ensures MarksWithin(s + ". We prioritize meaningful" + " impact, user-centric" + " design, and the ethical"
                          + " development of technology" + " to serve humanity.", 'I', P)
  {
    var s := s;
    MarksAbsent(s, ". We prioritize meaningful", 'I', P); s := s + ". We prioritize meaningful";
    MarksAbsent(s, " impact, user-centric", 'I', P); s := s + " impact, user-centric";
    MarksAbsent(s, " design, and the ethical", 'I', P); s := s + " design, and the ethical";
    MarksAbsent(s, " development of technology", 'I', P); s := s + " development of technology";
    MarksAbsent(s, " to serve humanity.", 'I', P);
  }

  lemma ValuesMarks()
    ensures MarksWithin(ValuesText, 'I', {0, 25})
  {
    assert forall t :: 0 <= t < |"Innovation"| && "Innovation"[t] == 'I' ==> t == 0;
    assert forall t :: 0 <= t < |"Integrity"| && "Integrity"[t] == 'I' ==> t == 0;
    MarksOnce([], "Innovation", 'I', {}, 0);
    assert [] + "Innovation" == "Innovation";
    MarksAbsent("Innovation", ", Empathy, and ", 'I', {0});
    var s := "Innovation" + ", Empathy, and ";
    MarksOnce(s, "Integrity", 'I', {0}, 0);
    ValuesTail(s + "Integrity", {0} + {25});
  }

  lemma MissionOnce()
    ensures OccursAt(MissionText, "empower", 3)
    ensures forall i :: OccursAt(MissionText, "empower", i) ==> i == 3
  {
    assert MissionText[3..10] == "empower";
    MissionMarks();
    OnlyOccurrence(MissionText, "empower", 3, 1, {4});
  }

  lemma VisionOnce()
    ensures OccursAt(VisionText, "future", 2)
    ensures forall i :: OccursAt(VisionText, "future", i) ==> i == 2
  {
    assert VisionText[2..8] == "future";
    assert VisionText[102..108][1] == VisionText[103] == 'i';
    assert VisionText[125..131][1] == VisionText[126] == ' ';
    assert VisionText[144..150][1] == VisionText[145] == 'o';
    VisionMarks();
    OnlyOccurrence(VisionText, "future", 2, 0, {2, 102, 125, 144});
  }

  lemma ValuesOnce()
    ensures OccursAt(ValuesText, "Innovation", 0)
    ensures forall i :: OccursAt(ValuesText, "Innovation", i) ==> i == 0
  {
    assert ValuesText[0..10] == "Innovation";
    assert ValuesText[27] == 't';
    ValuesMarks();
    OnlyOccurrence(ValuesText, "Innovation", 0, 0, {0, 25});
  }

  /** Each section's highlight occurs exactly once, case-sensitively, in its
      text, so each paragraph has exactly one highlighted span. */
  lemma EachSectionOneSpan(i: nat)
    requires i < |Sections|
    ensures var sec := Sections[i];
            |Split(sec.text, sec.highlight)| == 2
            && HighlightCount(Paragraph(sec.text, sec.highlight)) == 1
  {
    var sec := Sections[i];
    if i == 0 {
      MissionOnce();
      OneSpan(sec.text, sec.highlight, 3);
      SplitAtUnique(sec.text, sec.highlight, 3);
    } else if i == 1 {
      VisionOnce();
      OneSpan(sec.text, sec.highlight, 2);
      SplitAtUnique(sec.text, sec.highlight, 2);
    } else {
      ValuesOnce();
      OneSpan(sec.text, sec.highlight, 0);
      SplitAtUnique(sec.text, sec.highlight, 0);
    }
  }

  /** The mono label: `number.padStart(3, '0')`. */
  function Label(sec: Section): string {
    PadStart(sec.number, 3, "0")
  }

  /** The digits of the sticky column, top to bottom. */
  const StickyDigits: seq<string> := ["1", "2", "3"]

  /** Every two-character number gets exactly one leading zero. */
  lemma LabelOfTwoChars(sec: Section)
    requires |sec.number| == 2
    ensures Label(sec) == "0" + sec.number && |Label(sec)| == 3
  {
  }

  /** The sections are numbered 01, 02, 03 in order, labelled 001, 002, 003,
      and the sticky column shows the same numbers' last digits in the same
      order. */
  lemma Numbering(i: nat)
    requires i < |Sections|
    ensures |StickyDigits| == |Sections|
    ensures Sections[i].number == ZeroPad(i + 1, 2)
    ensures Sections[i].number == "0" + StickyDigits[i]
    ensures Label(Sections[i]) == "00" + StickyDigits[i]
  {
    ZeroPadOneDigit(i + 1);
  }
}

=== FILE: navbar.dfy ===
/** The navigation bar: two flags derived from the latest scroll position, the
    styling chosen from them, and the full-screen menu's open flag with its
    toggle and close events. */
module Navbar {
  import opened Wrappers

  datatype Nav = Nav(isScrolled: bool, isAtBottom: bool, menuOpen: bool)

  /** First render: not scrolled, not at the bottom, menu closed. */
  const Initial := Nav(false, false, false)

  /** What a scroll event sees: the new `scrollY`, `window.innerHeight` and
      `document.documentElement.scrollHeight`, in CSS pixels. */
  datatype Geometry = Geometry(scrollY: real, innerHeight: real, scrollHeight: real)

  /** Scrolled past the first 50 pixels. */
  predicate ScrolledAt(g: Geometry) {
    g.scrollY > 50.0
  }

  /** The viewport's bottom edge is within 100 pixels of the document's end. */
  predicate NearBottomAt(g: Geometry) {
    g.scrollY + g.innerHeight >= g.scrollHeight - 100.0
  }

  /** The scroll handler: both flags come from the new geometry alone; the
      menu flag is untouched. */
  function OnScroll(s: Nav, g: Geometry): (r: Nav)
    ensures r.isScrolled <==> ScrolledAt(g)
    ensures r.isAtBottom <==> NearBottomAt(g)
    ensures r.menuOpen == s.menuOpen
  {
    s.(isScrolled := g.scrollY > 50.0, isAtBottom := g.scrollY + g.innerHeight >= g.scrollHeight - 100.0)
  }

  /** The menu button. */
  function Toggle(s: Nav): (r: Nav)
    ensures r.menuOpen != s.menuOpen
    ensures r.isScrolled == s.isScrolled && r.isAtBottom == s.isAtBottom
  {
    s.(menuOpen := !s.menuOpen)
  }

  /** The overlay logo, the close button and each of the five menu links. */
  function Close(s: Nav): (r: Nav)
    ensures !r.menuOpen
    ensures r.isScrolled == s.isScrolled && r.isAtBottom == s.isAtBottom
  {
    s.(menuOpen := false)
  }

  /** Toggling twice changes nothing. */
  lemma ToggleTwice(s: Nav)
    ensures Toggle(Toggle(s)) == s
  {
  }

  /** Closing twice is closing once, and closing an already closed menu
      changes nothing. */
  lemma CloseIdempotent(s: Nav)
    ensures Close(Close(s)) == Close(s)
    ensures !s.menuOpen ==> Close(s) == s
  {
  }

  /** Two scroll events with the same geometry leave the same flags whatever
      the states before them. */
  lemma ScrollForgetsHistory(s: Nav, t: Nav, g: Geometry)
    ensures OnScroll(s, g).isScrolled == OnScroll(t, g).isScrolled
    ensures OnScroll(s, g).isAtBottom == OnScroll(t, g).isAtBottom
    ensures OnScroll(OnScroll(s, g), g) == OnScroll(s, g)
  {
  }

  /** Menu events and scroll events commute: they touch disjoint fields. */
  lemma MenuScrollCommute(s: Nav, g: Geometry)
    ensures OnScroll(Toggle(s), g) == Toggle(OnScroll(s, g))
    ensures OnScroll(Close(s), g) == Close(OnScroll(s, g))
  {
  }

  /** The text colour of the logo and of the clock. */
  function TextColor(s: Nav): string {
    if s.isScrolled && !s.isAtBottom then "text-black" else "text-white"
  }

  /** The menu button's border and colour classes. */
  function ButtonStyle(s: Nav): string {
    if s.isScrolled && !s.isAtBottom then "border-black/10 text-black hover:bg-black/5"
    else "border-white/20 text-white hover:bg-white/10"
  }

  /** The extra vertical padding class of the bar. */
  function Padding(s: Nav): string {
    if s.isScrolled then "py-4 md:py-6" else ""
  }

  /** Dark styling: past the top of the page and away from its end. */
  predicate Dark(s: Nav) {
    s.isScrolled && !s.isAtBottom
  }

  /** Logo, clock and menu button all turn dark together, exactly when the bar
      is scrolled and not at the bottom; the bar is compact exactly when it is
      scrolled, so dark implies compact. */
  lemma StylingAgrees(s: Nav)
    ensures TextColor(s) == "text-black" <==> Dark(s)
    ensures ButtonStyle(s) == "border-black/10 text-black hover:bg-black/5" <==> Dark(s)
    ensures Padding(s) == "py-4 md:py-6" <==> s.isScrolled
    ensures Dark(s) ==> Padding(s) != ""
    ensures !Dark(Initial) && Padding(Initial) == ""
  {
  }

  /** After a scroll event the bar is dark exactly when the page is past the
      first 50 pixels and more than 100 pixels from its end. */
  lemma DarkAfterScroll(s: Nav, g: Geometry)
    ensures Dark(OnScroll(s, g)) <==> g.scrollY > 50.0 && g.scrollY + g.innerHeight < g.scrollHeight - 100.0
  {
  }

  datatype Event = Scroll(g: Geometry) | MenuButton | CloseMenu

  function Apply(s: Nav, e: Event): Nav {
    match e
    case Scroll(g) => OnScroll(s, g)
    case MenuButton => Toggle(s)
    case CloseMenu => Close(s)
  }

  function Replay(s: Nav, events: seq<Event>): Nav
    decreases |events|
  {
    if |events| == 0 then s else Replay(Apply(s, events[0]), events[1..])
  }

  /** The geometry of the latest scroll event, if any. */
  function LastScroll(events: seq<Event>): (r: Option<Geometry>)
    ensures r.Some? ==> exists k :: 0 <= k < |events| && events[k] == Scroll(r.value)
                                    && forall k' :: k < k' < |events| ==> !events[k'].Scroll?
    ensures r.None? ==> forall k :: 0 <= k < |events| ==> !events[k].Scroll?
    decreases |events|
  {
    if |events| == 0 then None
    else if events[|events| - 1].Scroll? then Some(events[|events| - 1].g)
    else
      var r := LastScroll(events[..|events| - 1]);
      assert forall k :: 0 <= k < |events| - 1 ==> events[..|events| - 1][k] == events[k];
      r
  }

  /** The position of the latest close event, if any. */
  function LastClose(events: seq<Event>): (r: Option<nat>)
    ensures r.Some? ==> r.value < |events| && events[r.value] == CloseMenu
                        && forall k :: r.value < k < |events| ==> events[k] != CloseMenu
    ensures r.None? ==> forall k :: 0 <= k < |events| ==> events[k] != CloseMenu
    decreases |events|
  {
    if |events| == 0 then None
    else if events[|events| - 1] == CloseMenu then Some(|events| - 1)
    else
      var r := LastClose(events[..|events| - 1]);
      assert forall k :: 0 <= k < |events| - 1 ==> events[..|events| - 1][k] == events[k];
      r
  }

  /** The number of menu button presses after the latest close event, or in
      all the events when there is none. */
  function PressesSinceClose(events: seq<Event>): nat {
    match LastClose(events)
    case None => multiset(events)[MenuButton]
    case Some(i) => multiset(events[i + 1..])[MenuButton]
  }

  /** One more event: a close restarts the count, a press adds one, anything
      else leaves it. */
  lemma PressesSnoc(init: seq<Event>, e: Event)
    ensures e == CloseMenu ==> LastClose(init + [e]).Some? && PressesSinceClose(init + [e]) == 0
    ensures e != CloseMenu ==> LastClose(init + [e]).Some? == LastClose(init).Some?
    ensures e != CloseMenu ==> PressesSinceClose(init + [e]) == PressesSinceClose(init) + (if e == MenuButton then 1 else 0)
  {
    var events := init + [e];
    assert events[..|events| - 1] == init;
    if e == CloseMenu {
      assert LastClose(events) == Some(|init|);
      assert events[|init| + 1..] == [];
    } else {
      assert LastClose(events) == LastClose(init);
      match LastClose(init)
      case None =>
        assert multiset(events) == multiset(init) + multiset{e};
      case Some(i) =>
        PressesAfter(init, e, i + 1);
    }
  }

  /** The presses in a suffix grow by the appended event's. */
  lemma PressesAfter(init: seq<Event>, e: Event, from: nat)
    requires from <= |init|
    ensures multiset((init + [e])[from..])[MenuButton] == multiset(init[from..])[MenuButton] + (if e == MenuButton then 1 else 0)
  {
    assert (init + [e])[from..] == init[from..] + [e];
    assert multiset(init[from..] + [e]) == multiset(init[from..]) + multiset{e};
  }

  /** The menu flag `open` after `events`, started from `start`, is the one
      the presses since the latest close give. */
  predicate MenuAgrees(start: bool, events: seq<Event>, open: bool) {
    open <==> if LastClose(events).Some? then PressesSinceClose(events) % 2 == 1
              else start != (PressesSinceClose(events) % 2 == 1)
  }

  /** One more event keeps the menu flag in agreement with the count. */
  lemma MenuStep(start: bool, init: seq<Event>, e: Event, before: bool)
    requires MenuAgrees(start, init, before)
    ensures MenuAgrees(start, init + [e], if e == CloseMenu then false else if e == MenuButton then !before else before)
  {
    PressesSnoc(init, e);
    var p := PressesSinceClose(init);
    var p' := PressesSinceClose(init + [e]);
    if e == MenuButton {
      assert p' == p + 1;
      assert (p' % 2 == 1) == !(p % 2 == 1);
    } else if e != CloseMenu {
      assert p' == p;
    }
  }

  /** The menu half of `ReplayReference`. */
  lemma {:induction false} MenuReference(s: Nav, events: seq<Event>)
    ensures MenuAgrees(s.menuOpen, events, Replay(s, events).menuOpen)
    decreases |events|
  {
    if |events| > 0 {
      var init := events[..|events| - 1];
      var e := events[|events| - 1];
      assert events == init + [e];
      ReplaySnoc(s, init, e);
      MenuReference(s, init);
      MenuStep(s.menuOpen, init, e, Replay(s, init).menuOpen);
    }
  }

  /** The scroll half of `ReplayReference`. */
  lemma {:induction false} ScrollReference(s: Nav, events: seq<Event>)
    ensures var r := Replay(s, events);
            && (r.isScrolled <==> match LastScroll(events) case None => s.isScrolled case Some(g) => ScrolledAt(g))
            && (r.isAtBottom <==> match LastScroll(events) case None => s.isAtBottom case Some(g) => NearBottomAt(g))
    decreases |events|
  {
    if |events| > 0 {
      var init := events[..|events| - 1];
      var e := events[|events| - 1];
      ReplaySnoc(s, init, e);
      assert events == init + [e];
      ScrollReference(s, init);
    }
  }

  /** Replaying events from left to right: the flags are those of the latest
      scroll event, and the menu is open exactly when an odd number of button
      presses followed the latest close (or, without a close, when that
      parity flipped the starting flag). */
  lemma ReplayReference(s: Nav, events: seq<Event>)
    ensures var r := Replay(s, events);
            && (r.menuOpen <==> if LastClose(events).Some? then PressesSinceClose(events) % 2 == 1
                                else s.menuOpen != (PressesSinceClose(events) % 2 == 1))
            && (r.isScrolled <==> match LastScroll(events) case None => s.isScrolled case Some(g) => ScrolledAt(g))
            && (r.isAtBottom <==> match LastScroll(events) case None => s.isAtBottom case Some(g) => NearBottomAt(g))
  {
    MenuReference(s, events);
    ScrollReference(s, events);
  }

  lemma {:induction false} ReplaySnoc(s: Nav, events: seq<Event>, e: Event)
    ensures Replay(s, events + [e]) == Apply(Replay(s, events), e)
    decreases |events|
  {
    if |events| == 0 {
      assert events + [e] == [e];
    } else {
      assert (events + [e])[1..] == events[1..] + [e];
      ReplaySnoc(Apply(s, events[0]), events[1..], e);
    }
  }

  /** From the first render: scrolled and at-bottom are false until the first
      scroll event and then follow the latest one; the menu is open exactly
      after an odd number of button presses since the latest close. */
  lemma FromInitial(events: seq<Event>)
    ensures Replay(Initial, events).menuOpen <==> PressesSinceClose(events) % 2 == 1
    ensures LastScroll(events).None? ==> !Replay(Initial, events).isScrolled && !Replay(Initial, events).isAtBottom
    ensures LastScroll(events).Some? ==>
              (Replay(Initial, events).isScrolled <==> ScrolledAt(LastScroll(events).value))
              && (Replay(Initial, events).isAtBottom <==> NearBottomAt(LastScroll(events).value))
  {
    ReplayReference(Initial, events);
  }
}

=== FILE: product_carousel.dfy ===
/** The product carousel: a circular active index over the fixed product list,
    a direction flag that picks the slide's enter and exit offsets, the
    zero-padded "current / total" counter, the feature numbers and the
    progress dots. */
module ProductCarousel {
  import opened EcmaString

  datatype Product = Product(id: string, title: string, subtitle: string, price: string, features: seq<string>)

  const Products: seq<Product> := [
    Product("001", "The Surrounding Scanner", "Wearable Vision System", "Starting at $79",
      ["Front-facing sensor for obstacle detection and object recognition",
       "Real-time alerts delivered to a discreet earpiece",
       "Customizable lens options",
       "Optional vibration feedback & Bluetooth connectivity"]),
    Product("002", "Dexarm", "Affordable Prosthetic Arm", "Starting at $1000",
      ["Modular prosthetic arm build with accessible parts",
       "Lightweight, durable frame for daily use",
       "Intuitive control system optimized for reliability",
       "Designed for accessibility and long-term affordability"])
  ]

  /** `products.length`, written out so that proofs about the state machine
      need not unfold the catalogue; `ProductCount` ties the two. */
  const N: nat := 2

  lemma ProductCount()
    ensures N == |Products|
    ensures forall p :: 0 <= p < N ==> |Products[p].features| == 4
  {
  }

  /** The two pieces of component state. `direction` is 1 after a forward
      move, -1 after a backward one and 0 before any move. `index` is a plain
      number: nothing stops a caller of `goTo` from storing any value in it. */
  datatype Carousel = Carousel(index: int, direction: int)

  const Initial := Carousel(0, 0)

  /** The index names a product and the direction is one of the three flags. */
  predicate Valid(c: Carousel, n: int) {
    0 <= c.index < n && (c.direction == -1 || c.direction == 0 || c.direction == 1)
  }

  /** JavaScript's `a % n` on integers: the quotient is truncated toward zero,
      so the remainder takes the sign of `a`. */
  function JsRem(a: int, n: int): (r: int)
    requires n != 0
    ensures exists q :: a == q * n + r
    ensures (a >= 0 ==> 0 <= r) && (a <= 0 ==> r <= 0)
    ensures -n < r < n || n < r < -n
  {
    var m := if n < 0 then -n else n;
    var r := if a >= 0 then a % m else -((-a) % m);
    assert a == (if a >= 0 then a / m else -((-a) / m)) * m + r;
    if n < 0 then
      assert a == -(if a >= 0 then a / m else -((-a) / m)) * n + r;
      r
    else r
  }

  lemma MulAtLeast(d: int, n: int)
    requires d >= 1 && n > 0
    ensures d * n >= n
  {
    assert d * n - n == (d - 1) * n;
  }

  /** Euclidean division has one quotient and one remainder. */
  lemma ModUnique(a: int, n: int, q: int, r: int)
    requires n > 0 && a == q * n + r && 0 <= r < n
    ensures a % n == r && a / n == q
  {
    var q', r' := a / n, a % n;
    assert (q - q') * n == r' - r;
    if q - q' >= 1 {
      MulAtLeast(q - q', n);
    } else if q' - q >= 1 {
      MulAtLeast(q' - q, n);
    }
  }

  /** The "next" arrow: one step forward around the circle. */
  function GoNext(c: Carousel, n: int): (r: Carousel)
    requires n > 0
    ensures r.direction == 1
    ensures Valid(c, n) ==> Valid(r, n)
    ensures Valid(c, n) ==> r.index == if c.index == n - 1 then 0 else c.index + 1
  {
    var r := Carousel(JsRem(c.index + 1, n), 1);
    if Valid(c, n) then
      if c.index == n - 1 then
        ModUnique(c.index + 1, n, 1, 0);
        r
      else
        ModUnique(c.index + 1, n, 0, c.index + 1);
        r
    else r
  }

  /** The "previous" arrow: one step backward around the circle. */
  function GoPrev(c: Carousel, n: int): (r: Carousel)
    requires n > 0
    ensures r.direction == -1
    ensures Valid(c, n) ==> Valid(r, n)
    ensures Valid(c, n) ==> r.index == if c.index == 0 then n - 1 else c.index - 1
  {
    var r := Carousel(JsRem(c.index - 1 + n, n), -1);
    if Valid(c, n) then
      if c.index == 0 then
        ModUnique(c.index - 1 + n, n, 0, n - 1);
        r
      else
        ModUnique(c.index - 1 + n, n, 1, c.index - 1);
        r
    else r
  }

  /** A progress dot: jump to `j`, forward when `j` is above the current index
      by plain comparison, backward otherwise (also when `j` is the current
      index). There is no range check. */
  function GoTo(c: Carousel, j: int): (r: Carousel)
    ensures r.index == j
    ensures r.direction == 1 <==> j > c.index
    ensures r.direction == -1 <==> j <= c.index
  {
    Carousel(j, if j > c.index then 1 else -1)
  }

  /** A jump to an in-range index keeps the state valid; one out of range
      is stored as it is. */
  lemma GoToRange(c: Carousel, j: int, n: int)
    ensures Valid(GoTo(c, j), n) <==> 0 <= j < n
  {
  }

  /** Going forward and then back, or back and then forward, returns to the
      same product. */
  lemma NextPrevInverse(c: Carousel, n: int)
    requires n > 0 && Valid(c, n)
    ensures GoPrev(GoNext(c, n), n).index == c.index
    ensures GoNext(GoPrev(c, n), n).index == c.index
  {
  }

  /** `k` presses of the next arrow. */
  function NextTimes(c: Carousel, n: int, k: nat): Carousel
    requires n > 0
  {
    if k == 0 then c else GoNext(NextTimes(c, n, k - 1), n)
  }

  /** `k` presses of the next arrow advance the index by `k` around the
      circle. */
  lemma {:induction false} NextTimesIndex(c: Carousel, n: int, k: nat)
    requires n > 0 && Valid(c, n)
    ensures Valid(NextTimes(c, n, k), n)
    ensures NextTimes(c, n, k).index == (c.index + k) % n
  {
    if k == 0 {
      ModUnique(c.index, n, 0, c.index);
    } else {
      NextTimesIndex(c, n, k - 1);
      var p := NextTimes(c, n, k - 1);
      ModAddOne(c.index + k - 1, n);
      if p.index == n - 1 {
        ModUnique(p.index + 1, n, 1, 0);
      } else {
        ModUnique(p.index + 1, n, 0, p.index + 1);
      }
    }
  }

  lemma ModAddOne(a: int, n: int)
    requires n > 0
    ensures (a % n + 1) % n == (a + 1) % n
  {
    var q, r := a / n, a % n;
    if r + 1 < n {
      ModUnique(r + 1, n, 0, r + 1);
      ModUnique(a + 1, n, q, r + 1);
    } else {
      ModUnique(r + 1, n, 1, 0);
      assert a + 1 == (q + 1) * n + 0;
      ModUnique(a + 1, n, q + 1, 0);
    }
  }

  /** `n` presses of the next arrow come back to the starting product. */
  lemma FullCircle(c: Carousel, n: int)
    requires n > 0 && Valid(c, n)
    ensures NextTimes(c, n, n).index == c.index
  {
    NextTimesIndex(c, n, n);
    ModUnique(c.index + n, n, 1, c.index);
  }

  /** The horizontal offset the entering slide starts from. */
  function EnterX(direction: int): int {
    if direction > 0 then 60 else -60
  }

  /** The horizontal offset the leaving slide moves to. */
  function ExitX(direction: int): int {
    if direction < 0 then 60 else -60
  }

  /** After a move the two offsets mirror each other: forward enters from the
      right (60) and leaves to the left (-60), backward the other way round.
      Before any move (direction 0) both are -60. */
  lemma OffsetsMirror(direction: int)
    ensures direction == 1 ==> EnterX(direction) == 60 && ExitX(direction) == -60
    ensures direction == -1 ==> EnterX(direction) == -60 && ExitX(direction) == 60
    ensures direction != 0 ==> ExitX(direction) == -EnterX(direction)
    ensures direction == 0 ==> EnterX(direction) == -60 == ExitX(direction)
  {
  }

  /** The counter's current half: `String(currentIndex + 1).padStart(2, '0')`. */
  function CurrentLabel(c: Carousel): string
    requires c.index >= 0
  {
    ZeroPad(c.index + 1, 2)
  }

  /** The counter's total half: `String(products.length).padStart(2, '0')`. */
  function TotalLabel(): string {
    ZeroPad(N, 2)
  }

  /** Both counter halves are two digits that read back as the position and
      the product count; with two products they are "01"/"02" and "02". */
  lemma CounterLabels(c: Carousel)
    requires Valid(c, N)
    ensures |CurrentLabel(c)| == 2 && ParseDecimal(CurrentLabel(c)) == c.index + 1
    ensures |TotalLabel()| == 2 && ParseDecimal(TotalLabel()) == N
    ensures TotalLabel() == "02"
    ensures CurrentLabel(c) == if c.index == 0 then "01" else "02"
  {
    ZeroPadOneDigit(c.index + 1);
    ZeroPadOneDigit(N);
  }

  /** The number beside feature `i`: `String(i + 1).padStart(2, '0')`. */
  function FeatureLabel(i: nat): string {
    ZeroPad(i + 1, 2)
  }

  /** Every feature of every product gets a two-digit number reading back as
      its position, counted from 1. */
  lemma FeatureLabels(p: nat, i: nat)
    requires p < N && i < |Products[p].features|
    ensures |FeatureLabel(i)| == 2 && ParseDecimal(FeatureLabel(i)) == i + 1
    ensures FeatureLabel(i) == ['0', DigitChar(i + 1)]
  {
    ZeroPadOneDigit(i + 1);
  }

  /** Dot `i` is drawn wide when it is the current product. */
  predicate DotActive(c: Carousel, i: int) {
    i == c.index
  }

  /** The dots, in order, one per product; dot `i` calls `goTo(i)`. */
  function DotTargets(n: nat): (targets: seq<int>)
    ensures |targets| == n
    ensures forall i :: 0 <= i < n ==> targets[i] == i
  {
    seq(n, i => i)
  }

  /** In a valid state exactly one dot is active. */
  lemma OneActiveDot(c: Carousel, n: nat)
    requires Valid(c, n)
    ensures (set i | 0 <= i < n && DotActive(c, i)) == {c.index}
    ensures |set i | 0 <= i < n && DotActive(c, i)| == 1
  {
    var s := set i | 0 <= i < n && DotActive(c, i);
    assert c.index in s;
    assert s == {c.index};
  }

  /** What the user can do: the two arrows and a click on a dot. */
  datatype Action = Next | Prev | Dot(i: int)

  function Apply(c: Carousel, a: Action): Carousel {
    match a
    case Next => GoNext(c, N)
    case Prev => GoPrev(c, N)
    case Dot(i) => GoTo(c, i)
  }

  function Run(c: Carousel, actions: seq<Action>): Carousel
    decreases |actions|
  {
    if |actions| == 0 then c else Run(Apply(c, actions[0]), actions[1..])
  }

  /** A dot click the page can produce: dots exist only for the products. */
  predicate OnPage(a: Action) {
    a.Dot? ==> a.i in DotTargets(N)
  }

  /** Whatever the user clicks, the carousel keeps naming a product. */
  lemma {:induction false} RunStaysValid(c: Carousel, actions: seq<Action>)
    requires Valid(c, N)
    requires forall k :: 0 <= k < |actions| ==> OnPage(actions[k])
    ensures Valid(Run(c, actions), N)
    decreases |actions|
  {
    if |actions| > 0 {
      var a := actions[0];
      if a.Dot? {
        var t := DotTargets(N);
        var k :| 0 <= k < |t| && t[k] == a.i;
        GoToRange(c, a.i, N);
      }
      RunStaysValid(Apply(c, a), actions[1..]);
    }
  }

  /** From the initial state the page never leaves the product range. */
  lemma PageStaysValid(actions: seq<Action>)
    requires forall k :: 0 <= k < |actions| ==> OnPage(actions[k])
    ensures Valid(Run(Initial, actions), N)
  {
    RunStaysValid(Initial, actions);
  }

  /** A dot click with no matching dot leaves the product range: `goTo` has
      no range check of its own. */
  lemma GoToUnchecked()
    ensures !Valid(Apply(Initial, Dot(5)), N)
    ensures Apply(Initial, Dot(5)) == Carousel(5, 1)
  {
  }
}

=== FILE: wrappers.dfy ===
/** Small shared datatypes. */
module Wrappers {

  /** A value that may be missing. */
  datatype Option<T> = None | Some(value: T)
}
